=== FILE: README.md ===
# Waitlist globe: claim-and-validate core in Dafny

The application shows a globe of numbered slots, from 1 up to the configured
maximum. A signed-in user claims one slot for one wallet address, and the
slot is then drawn with the user's avatar. This project models the parts of
the application that decide whether a claim is accepted and what the user
sees. It then proves properties of that model.

Each module follows one source file:

| module | models |
|---|---|
| `AddressValidation` | `lib/address-validation.ts`: the wallet-address validator (Ethereum, Bitcoin, Solana and generic rules, in order) |
| `WaitlistService` | `lib/waitlist-service.ts`: the client-side spot registry. It uses the remote table when it can and a local store keyed by wallet otherwise, and every remote failure is masked by the local fallback |
| `ClaimRoute` | `app/api/waitlist/route.ts`: the server's claim decision. It checks identity, then wallet, then slot, and only then inserts |
| `GlobeConstants` | `components/globe/constants.ts`: the configured slot count (`MAX_SPOTS`), circle sizes, zoom range and drag thresholds |
| `GlobeUtils` | `components/globe/utils.ts`: circle sizing and the generated slot records |
| `Gestures` | `components/globe/event-handlers.ts`: the press/drag/pinch/click state machine of the pointer handlers |
| `GlobeHook` | `components/globe/useThreeGlobe.ts`: avatar choice, hover tooltip, click dispatch, and applying or clearing a claim on a slot's mesh |
| `WaitlistPopup` | `components/waitlist/waitlist-popup.tsx`: the join form's gating, validation, the entry it sends, and how failures are shown |
| `GlobeCanvas` | `components/globe/GlobeCanvas.tsx`: the page. This covers the `join`/`spot` query parameters, choosing a free slot, the auto-open rule, applying the server's answer, and the claims cache |
| `Policies` | properties that span the client and the server |

Shared helpers model JavaScript behaviour the source relies on:

- `Text`: `trim`, `startsWith`, `includes`, `indexOf`, `length` in UTF-16 code units, `String(n)` and `parseInt`.
- `Decimal`: the proof that `parseInt(String(n)) == n` for every integer `n`.
- `Keyed`: `new Map(pairs)`, where the last pair for a key wins.
- `Table`: the hosted table as a sequence of rows. A `.single()` or `.maybeSingle()` lookup yields a row only when exactly one row matches.

The environment becomes inputs:

- fresh ids and clocks (`Fresh`, `Ids`, `now`);
- remote failures (`Faults`, `deleteFails`);
- the answers of the server checks the form makes;
- `Math.sqrt`, `Number(...)` and the Fibonacci-spiral position, which are parameters.

## Behaviour the proofs bring out

- **The registry and the route disagree about moving a claim.** The client-side registry lets a wallet move its claim to another slot. The route refuses with a 400 "already joined" answer (`Policies.RegistryMovesWhereRouteRefuses`).
- **The registry's remote move skips the slot check.** A wallet can move onto a slot another wallet holds, leaving two rows on one slot (`WaitlistService.RemoteMoveSkipsSlotCheck`).
- **The registry never reports a remote "position taken".** Its remote path throws that error and then catches it. The local fallback decides instead (`WaitlistService.RemoteConflictIsMasked`).
- **The form mislabels one of the route's answers.** The route's "different wallet" refusal mentions "Twitter account". The form therefore shows it as the generic "already joined" text on the name field, not as a wallet error (`Policies.AlreadyJoinedRefusalsOnNameField`).
- **Ignored lookup errors can duplicate a key.** The route and the registry never read the error of their slot lookup, and the registry never reads the error of its wallet lookup. A failed lookup therefore reads as "free", and the insert that follows can put a second row on a held slot or wallet (`ClaimRoute.SlotLookupFailureDuplicatesSlot`, `WaitlistService.SlotLookupFailureDuplicatesSlot`, `WaitlistService.WalletLookupFailureDuplicatesWallet`).
- **A short drag still counts as a click.** A mouse drag of 15 to 30 px is a drag and also a click on release (`Gestures.ShortDragStillClicks`).

## Model

| member | source | states |
|---|---|---|
| AddressValidation.ValidateWalletAddress | lib/address-validation.ts:14-64 | The normalized address is always the trimmed input. An address is valid exactly when no error is set. A blank address gets the "required" error. A `0x` address is valid exactly when it is `0x` plus 40 hex digits. A Bitcoin-prefixed address is valid exactly when its length in UTF-16 code units is 26 to 62. The base58 and generic rules are tried only after those. |
| AddressValidation.ClassifyTrimmed | lib/address-validation.ts:24-63 | On non-blank trimmed text, the same per-family verdicts, the Bitcoin length again counted in UTF-16 code units: the `0x` rule decides alone, then the Bitcoin-prefix rule, then base58 or the generic rule. The normalized address is the text itself. |
| AddressValidation.GetAddressErrorMessage | lib/address-validation.ts:69-72 | The message is absent exactly for valid addresses, and otherwise is the validator's error. |
| AddressValidation.ValidationSeesTrimmedOnly | lib/address-validation.ts:15-17 | Surrounding whitespace never changes the verdict. |
| AddressValidation.ValidationIdempotent | lib/address-validation.ts:14-64 | Validating the normalized address again gives the same result. |
| AddressValidation.ShortAddressRejected | lib/address-validation.ts:54-63 | `"short"` is rejected with the generic format message. |
| AddressValidation.TrimmedTextIsClassified | lib/address-validation.ts:15-23 | Non-blank text without surrounding whitespace passes the "required" check unchanged and is judged by the family rules alone. |
| AddressValidation.ShortUnprefixedRejected | lib/address-validation.ts:25-63 | Trimmed text under 20 characters whose first character is not `0`, `1`, `3` or `b` matches no family prefix. It is rejected with the generic format message. |
| AddressValidation.AstralBitcoinAddressAccepted | lib/address-validation.ts:37-43 | `1` followed by 13 characters outside the Basic Multilingual Plane has length 27 in UTF-16 code units, and is accepted as a Bitcoin address. |
| Text.Utf16Length | lib/address-validation.ts:39 | JavaScript's `length`: between the number of characters and twice that, equal to it exactly when no character is astral, and twice it exactly when every character is. |
| AddressValidation.EthereumPrefixShadowsGenericRule | lib/address-validation.ts:25-57 | A 42-character alphanumeric string starting with `0x` is rejected, although the generic rule alone would accept it. |
| Table.Filter | app/api/waitlist/route.ts:37-41 | The rows an `.eq` filter selects are exactly the rows satisfying it. |
| Table.Lookup | app/api/waitlist/route.ts:37-41 | `.maybeSingle()` returns a row only when it satisfies the filter and is the only row that does. |
| Table.LookupUnique | app/api/waitlist/route.ts:37-41 | When at most one row can match, a row is found exactly when some row matches. |
| Table.UniqueKeysLookups | app/api/waitlist/route.ts:37-120 | A table with unique users, wallets and slots has at most one match for each of the route's three lookups. |
| Keyed.KeyByContents | lib/waitlist-service.ts:275 | A map built from pairs holds every key of the list, each value comes from the list, and the last pair for a key wins. |
| WaitlistService.AppDbRoundTrip | lib/waitlist-service.ts:37-78 | Writing an entry and reading back the inserted row preserves every submitted field. It gives the same entry the local store would hold. |
| WaitlistService.LoadStoreContents | lib/waitlist-service.ts:268-281 | The loaded store holds exactly the wallets of the stored array, each under its own address. A repeated wallet keeps its last entry. |
| WaitlistService.SaveToLocalStorage | lib/waitlist-service.ts:283-292 | Loading the saved array gives the store back. |
| WaitlistService.FallbackToLocalStorage | lib/waitlist-service.ts:294-337 | Resubmitting the same wallet and slot returns the stored entry unchanged. A slot held by another wallet is refused with "This position is already taken" and nothing is saved; this is the only failure. On success the wallet maps to a fresh entry on the requested slot. Other wallets are untouched. |
| WaitlistService.FallbackPreservesInvariants | lib/waitlist-service.ts:294-337 | A store keyed by wallet, with pairwise distinct slots, stays so after the fallback. |
| WaitlistService.FallbackResubmitIsIdempotent | lib/waitlist-service.ts:307-315 | Repeating a successful fallback returns the same entry and store. |
| WaitlistService.GetFromLocalStorage | lib/waitlist-service.ts:339-342 | An entry is found exactly when the wallet is stored, and it is that wallet's entry. |
| WaitlistService.GetByProfileIdFromLocalStorage | lib/waitlist-service.ts:344-351 | It returns an entry holding the slot, and none exactly when no entry does. With distinct slots, it returns the only holder. |
| WaitlistService.RemoveFromLocalStorage | lib/waitlist-service.ts:358-365 | It reports removal exactly when the wallet was present. The wallet is absent afterwards and every other entry is unchanged. |
| WaitlistService.StoreValues | lib/waitlist-service.ts:353-356 | Every stored entry appears in the array and nothing else does. The array has one element per stored wallet. |
| WaitlistService.GetSizeFromLocalStorage | lib/waitlist-service.ts:367-370 | The size is the number of distinct wallets in the stored array, or 0 when nothing is stored. |
| WaitlistService.UpdateWallet | lib/waitlist-service.ts:108-121 | Every row of the wallet is moved and every other row is unchanged. |
| WaitlistService.PrimaryAdd | lib/waitlist-service.ts:93-146 | An unreachable store fails. A successful result holds the requested wallet and slot. A result that leaves the table unchanged is an existing row. With no wallet row seen, a slot row seen gives "position taken", and a free slot appends the inserted row and returns it. A wallet row seen on its own slot is returned as is, even when an update would fail. A wallet row on another slot is moved: the moved row is returned and the table is updated in place. A failed update or insert is a `Failure`. A failed wallet or slot lookup counts as no row. |
| WaitlistService.AddEntry | lib/waitlist-service.ts:80-151 | The only error a caller can see is the local "position taken" refusal, and it leaves both stores unchanged. Without a client, or on any remote failure, the result and the local store are the local fallback's and the remote table is untouched. On remote success the local store is untouched and the remote table is the one the remote path produced. |
| WaitlistService.RemoteConflictIsMasked | lib/waitlist-service.ts:126-150 | A slot held remotely by another wallet is still claimed: locally, with an empty local store. |
| WaitlistService.PrimaryInsertKeepsKeysUnique | lib/waitlist-service.ts:126-146 | When the remote path inserts a row for a wallet new to a table with unique wallets and slots, the table keeps them unique, provided the slot lookup does not fail. |
| WaitlistService.SlotLookupFailureDuplicatesSlot | lib/waitlist-service.ts:126-146 | When the slot lookup fails, a new wallet is inserted on a held slot, and the table loses slot uniqueness. |
| WaitlistService.WalletLookupFailureDuplicatesWallet | lib/waitlist-service.ts:96-101 | When the wallet lookup fails, a wallet that already has a row is inserted again on a free slot, and the table loses wallet uniqueness. |
| WaitlistService.RemoteMoveSkipsSlotCheck | lib/waitlist-service.ts:102-124 | A wallet moving onto a slot another wallet holds succeeds remotely and leaves two rows on that slot. The local fallback refuses the same move. |
| WaitlistService.RemoteMoveOntoTakenSlot | lib/waitlist-service.ts:102-124 | For any two rows, moving the first wallet onto the second row's slot succeeds remotely and leaves both rows on one slot. |
| WaitlistService.LocalMoveOntoTakenSlot | lib/waitlist-service.ts:294-337 | For any two stored entries, the local store refuses to move the first wallet onto the slot the second holds. |
| WaitlistService.GetEntry | lib/waitlist-service.ts:153-171 | Without a reachable remote table, the answer is the local store's entry. Otherwise a found entry comes from a row holding the wallet, and zero or several matching rows give none. |
| WaitlistService.GetEntryOnUniqueTable | lib/waitlist-service.ts:157-166 | On a table with unique wallets, an entry is found exactly when some row holds the wallet. |
| WaitlistService.GetEntryByProfileId | lib/waitlist-service.ts:173-191 | A found entry holds the slot. Locally, none is found exactly when no entry holds it. Remotely, with unique slots, an entry is found exactly when a row holds the slot. |
| WaitlistService.GetAllEntries | lib/waitlist-service.ts:193-210 | Remotely, every row is converted, in table order. Locally, every stored entry appears, and the count equals the store's size. |
| WaitlistService.RemoveEntry | lib/waitlist-service.ts:212-228 | The remote delete reports success exactly when it returns no error, even when no row held the wallet. On success no row of the wallet remains. Without a reachable remote table, this is the local removal. |
| WaitlistService.GetWaitlistSize | lib/waitlist-service.ts:230-246 | The size is the remote row count, or the local store's size. |
| WaitlistService.ClearAllEntries | lib/waitlist-service.ts:248-265 | The remote delete keeps exactly the rows whose id is the nil id. A failed delete, or no reachable remote table, empties the local store instead. |
| ClaimRoute.NonEmptyOrNone | app/api/waitlist/route.ts:130-131 | A stored seed or style is present exactly when it was sent non-empty. |
| ClaimRoute.Post | app/api/waitlist/route.ts:5-160 | The status is 200, 400, 401 or 500, and 200 exactly when the reply is not an error. No session gives 401. A missing field gives 400. An unreadable body or a client that cannot be built gives 500 "Internal server error". No identity gives 400. A failed user lookup, a failed wallet lookup (for a new user) and a failed insert (for a free claim) each give 500 with the source's message, and every 500 comes from one of these and leaves the table unchanged. An existing claim is echoed back without a write. The table changes only by appending the created row, which holds the sent fields, the session's user and the store's id and time. |
| ClaimRoute.IdentityDecidesFirst | app/api/waitlist/route.ts:37-83 | A user who already has a row is answered from that row, whatever the wallet and slot conflicts. The same wallet and slot return the row. Anything else is a 400 with the matching message. |
| ClaimRoute.WalletDecidesSecond | app/api/waitlist/route.ts:85-106 | For a new user, a wallet held by any row is refused before the slot is looked at. |
| ClaimRoute.SlotDecidesLast | app/api/waitlist/route.ts:108-120 | For a new user with an unused wallet, a taken slot is refused. |
| ClaimRoute.FreeClaimInserts | app/api/waitlist/route.ts:123-152 | A new user with a free wallet and a free slot gets exactly one new row. |
| ClaimRoute.PostKeepsKeysUnique | app/api/waitlist/route.ts:37-152 | A table with one row per user, per wallet and per slot stays so after any request whose slot lookup does not fail. |
| ClaimRoute.SlotLookupFailureDuplicatesSlot | app/api/waitlist/route.ts:108-152 | When the slot lookup fails, a new user with an unused wallet is inserted on a held slot with a 200, and the table loses slot uniqueness. |
| ClaimRoute.ResubmitReturnsStoredClaim | app/api/waitlist/route.ts:52-68 | Sending the same claim again returns the stored row and writes nothing. |
| ClaimRoute.FirstClaimInserted | app/api/waitlist/route.ts:123-152 | On an empty table, a complete claim from an identified user is inserted as the only row, carrying that user, wallet and slot. |
| ClaimRoute.SecondClaimOnSameSlot | app/api/waitlist/route.ts:108-152 | Two different users asking for one slot with different wallets: the first is inserted, and the second is refused with "This position is already taken". |
| ClaimRoute.SecondClaimOnSameSlotIsRefused | app/api/waitlist/route.ts:108-120 | After A claims slot 5, B's claim of slot 5 with another wallet is refused as taken. |
| GlobeConstants.Clamp | components/globe/constants.ts:75-83 | `max(lo, min(hi, x))` lies in [lo, hi], and it is `x` when `x` is already inside. |
| GlobeConstants.MaxSpots | components/globe/constants.ts:75-83 | `MAX_SPOTS` lies in [200, 10000]. An unset or empty variable gives 1000, and so does a non-finite number. A finite number is clamped. |
| GlobeConstants.SpotCount | components/globe/constants.ts:75-83 | The number of slots is the integer part of `MAX_SPOTS`, between 200 and 10000. |
| GlobeConstants.WithinSpotCount | components/globe/GlobeCanvas.tsx:374-380 | An integer `i` satisfies `i <= MAX_SPOTS` exactly when it is at most the slot count. |
| GlobeConstants.SizesFor | components/globe/constants.ts:9-20 | For both device classes, 0 < min <= base <= max, with maxima 26 (mobile) and 35 (desktop). |
| GlobeConstants.ZoomRange | components/globe/constants.ts:39-42 | The zoom range is non-empty and positive. |
| GlobeConstants.DragThreshold | components/globe/constants.ts:55-56 | The touch threshold is above the mouse threshold, and a threshold exceeds 15 exactly for touch. |
| GlobeUtils.CalculateCircleSize | components/globe/utils.ts:7-23 | The size lies in the device's [min, max]. No entries gives the maximum. |
| GlobeUtils.CircleSizeNonIncreasing | components/globe/utils.ts:16-22 | With a monotone square root, more entries never give larger circles. |
| GlobeUtils.CircleSizeAtReference | components/globe/utils.ts:16-19 | At 250 entries the size is the device's base size. |
| GlobeUtils.SphericalDistribution | components/globe/utils.ts:28-48 | There is one position per index, in index order. |
| GlobeUtils.GenerateProfileData | components/globe/utils.ts:53-79 | The records have ids 1..count in order, the waitlist role, colour `COLORS[id % 6]` and the `(id-1)`-th position. |
| GlobeUtils.FindProfile | components/globe/useThreeGlobe.ts:117 | `find` returns the first record with the id, and none exactly when no record has it. |
| GlobeUtils.FindGeneratedProfile | components/globe/utils.ts:68-76 | In generated data an id is found exactly for 1 <= id <= count. It is found at position id-1, with colour `COLORS[id % 6]`. |
| GlobeUtils.FindFirst | components/globe/useThreeGlobe.ts:117 | With consecutive ids, `find` returns the record at the id's position. |
| Gestures.MouseDown | components/globe/event-handlers.ts:45-77 | Two touches start a pinch and stop auto-rotation. Anything else presses the pointer at the event point, records the time and ends any pinch. A pinch press leaves the press point, pointer and time alone; a plain press leaves the touch count and pinch distance alone. The tooltip is always hidden. |
| Gestures.MouseMove | components/globe/event-handlers.ts:82-159 | A pinch move zooms exactly when the spread changed by more than 2 px, inward when it grew. A drag starts only from a pressed, undragged pointer moved beyond the threshold, and it stops auto-rotation. The hover test runs exactly when the pointer is neither pressed nor pinching. An ordinary move never ends a drag, never changes the press point, time or pinch distance, changes auto-rotation only by starting a drag, and moves the recorded pointer exactly while dragging. |
| Gestures.MouseUp | components/globe/event-handlers.ts:164-212 | A click fires exactly for a press released within 500 ms and 30 px, outside a pinch. Ending a pinch schedules auto-rotation after 1000 ms. Ending a drag without a click schedules it after 2000 ms. The pointer is released, and the pinch, touches and press data are kept; auto-rotation changes only on a click. Ending a pinch changes only the pinch flag and the touch count. |
| Gestures.Apply | components/globe/event-handlers.ts:45-212 | Every handler and timer keeps the state consistent: a dragged pointer is pressed, and a pinch has two or more touches. |
| Gestures.RunKeepsConsistent | components/globe/event-handlers.ts:45-212 | Any sequence of events keeps the state consistent. |
| Gestures.InitialIsConsistent | components/globe/useThreeGlobe.ts:70-97 | The initial gesture state is consistent. |
| Gestures.TapIsClick | components/globe/event-handlers.ts:164-212 | A quick press and release at one point is a click and restarts auto-rotation. |
| Gestures.ShortDragStillClicks | components/globe/event-handlers.ts:88-212 | A 20 px mouse move is a drag and still a click. Auto-rotation stays off and nothing is scheduled. |
| Gestures.PinchReleaseIsNoClick | components/globe/event-handlers.ts:171-180 | Releasing a two-finger pinch is never a click, and it schedules auto-rotation after 1000 ms. |
| GlobeHook.StyleOf | components/globe/useThreeGlobe.ts:151-152 | The style is the trimmed stored style when that is not blank, otherwise "adventurer". It is never empty. |
| GlobeHook.SeedOf | components/globe/useThreeGlobe.ts:153-155 | The seed is the stored seed when non-empty. Otherwise it is the slot number in decimal, which parses back to the slot. It is never empty. |
| GlobeHook.AvatarSourceOf | components/globe/useThreeGlobe.ts:142-176 | A seeded avatar is generated exactly for `avatar_seed` entries. An upload is fetched exactly when it is an http(s) URL, and decoded when it is a `data:` URL. Anything else is drawn as emoji text: the avatar itself, or the default emoji when it is empty. |
| GlobeHook.NoPfpBadgeIffEmoji | components/globe/useThreeGlobe.ts:303-311 | The tooltip's "No PFP" badge appears exactly when the globe draws the avatar as emoji text. |
| GlobeHook.NormalizeUsername | components/globe/useThreeGlobe.ts:286-301 | A name starting with `@` is kept. Otherwise the name from its first `@` is used. A name without `@` is trimmed and prefixed with `@` unless it is blank. |
| GlobeHook.UsernameShape | components/globe/useThreeGlobe.ts:298-301 | The username starts with `@` unless the name is blank. |
| GlobeHook.NormalizeUsernameIdempotent | components/globe/useThreeGlobe.ts:286-301 | Normalizing twice is normalizing once. |
| GlobeHook.HoverTooltip | components/globe/useThreeGlobe.ts:282-314 | An empty slot shows "Available Spot". A member shows the normalized username of the claim's name, which starts with `@` unless the name is blank, with the badge exactly for emoji avatars. |
| GlobeHook.HandleClick | components/globe/useThreeGlobe.ts:245-271 | A click within 500 ms of the last accepted one is ignored. Otherwise its time is recorded. A claimed slot shows its member, and an empty slot is offered to the page. |
| GlobeHook.AcceptedClicksAreSpaced | components/globe/useThreeGlobe.ts:247-249 | Accepted clicks are at least 500 ms apart. |
| GlobeHook.FindMesh | components/globe/useThreeGlobe.ts:137-140 | The first mesh with the slot's id, and none exactly when no mesh has it. |
| GlobeHook.FindMeshFirst | components/globe/useThreeGlobe.ts:102-104 | The first mesh carrying an id is the one `find` returns. |
| GlobeHook.ApplyEntryToGlobe | components/globe/useThreeGlobe.ts:136-183 | Only the slot's mesh changes: it takes the claim's name, is marked waitlisted and shows the claim's avatar. A slot without a mesh changes nothing. |
| GlobeHook.ClearPositionVisually | components/globe/useThreeGlobe.ts:100-133 | Only the slot's mesh changes, back to the slot's original record and colour. A missing mesh or record changes nothing. |
| GlobeHook.ClearUndoesApply | components/globe/useThreeGlobe.ts:100-183 | Clearing a slot undoes applying a claim to a fresh slot. |
| WaitlistPopup.ValidateForm | components/waitlist/waitlist-popup.tsx:155-169 | The name error is set exactly for a blank name. The wallet error is set exactly for an invalid address, with the validator's message. The form is valid exactly when no error is set. |
| WaitlistPopup.CanSubmitIffValid | components/waitlist/waitlist-popup.tsx:63-69 | The button is enabled exactly when the form validates and the user is signed in. |
| WaitlistPopup.SeedFor | components/waitlist/waitlist-popup.tsx:228-231 | With a selected slot, the seed is its decimal text, which parses back to the slot. Otherwise it is the normalized wallet. |
| WaitlistPopup.BuildEntry | components/waitlist/waitlist-popup.tsx:218-240 | The trimmed name and normalized wallet are sent. The account image is sent as an upload. Otherwise a generated avatar is sent, whose avatar text and seed are the same seed, in the "adventurer" style. |
| WaitlistPopup.PreviewSeed | components/waitlist/waitlist-popup.tsx:418-423 | The preview seed is never empty, and it is "axios" when there is no slot and the wallet is blank. |
| WaitlistPopup.PreviewMatchesSentAvatar | components/waitlist/waitlist-popup.tsx:418-423 | The preview shows the avatar that is sent whenever the sent seed is non-empty. |
| WaitlistPopup.RouteError | components/waitlist/waitlist-popup.tsx:254-261 | Exactly one field shows an error. A message about joining or the Twitter account shows the fixed "already joined" text on the name field. Otherwise a message about a wallet address or an earlier use shows the fixed "already been used" text on the wallet field. Any other message is shown as is on the name field. |
| WaitlistPopup.HandleSubmit | components/waitlist/waitlist-popup.tsx:171-265 | An entry is sent exactly for a valid form from a signed-in user with no existing claim and an unused wallet, and it is `BuildEntry`'s entry. The earlier checks each stop with their own error, a used wallet with the wallet field's message. The form resets exactly when sending succeeds. |
| WaitlistPopup.SentOnlyWhenSubmittable | components/waitlist/waitlist-popup.tsx:171-265 | Only a form whose button is enabled ever reaches the submit callback. |
| GlobeCanvas.GetParam | components/globe/GlobeCanvas.tsx:202-203 | The value of the first pair with the name, and none exactly when the name is absent. |
| GlobeCanvas.DeleteParam | components/globe/GlobeCanvas.tsx:60-61 | The name is gone and every other name reads the same. The result is empty exactly when only that name was present. |
| GlobeCanvas.SetParam | components/globe/GlobeCanvas.tsx:46-49 | The name reads as the new value, and every other name reads the same. |
| GlobeCanvas.OpenPopup | components/globe/GlobeCanvas.tsx:40-51 | The popup opens on the slot and the notice is cleared. The query gets `join=true`, plus `spot=<id>` for a non-zero id. Other parameters are kept. |
| GlobeCanvas.ClosePopup | components/globe/GlobeCanvas.tsx:54-66 | The popup closes and the selection and notice are cleared. `join` and `spot` are removed and other parameters are kept. The address is bare exactly when only those two were present. |
| GlobeCanvas.RequestedSpot | components/globe/GlobeCanvas.tsx:207-209 | A `spot` value selects a slot exactly when it parses to an integer in 1..slot count. |
| GlobeCanvas.SyncFromUrl | components/globe/GlobeCanvas.tsx:206-223 | `join=true` with a valid slot opens the popup on it, and clears the error unless the popup was already open on that slot. Without `join=true` an open popup closes. Otherwise nothing changes, and the query itself never changes. |
| GlobeCanvas.SyncAfterOpenIsStable | components/globe/GlobeCanvas.tsx:40-223 | After opening the popup on a slot, the URL sync changes nothing. |
| GlobeCanvas.SyncAfterCloseIsStable | components/globe/GlobeCanvas.tsx:54-223 | After closing the popup, the URL sync changes nothing. |
| GlobeCanvas.FirstFreeSpot | components/globe/GlobeCanvas.tsx:374-380 | The lowest unclaimed slot in 1..slot count, and none exactly when every slot is claimed. |
| GlobeCanvas.JoinButton | components/globe/GlobeCanvas.tsx:367-386 | A user who has joined gets a notice. Otherwise the lowest free slot opens, or "No available spots" is shown when every slot is claimed. |
| GlobeCanvas.EmptySpotClick | components/globe/GlobeCanvas.tsx:70-76 | A user who has joined gets a notice. Otherwise the page does what `openPopup` does for the clicked slot: open, select, clear the error and write `join`/`spot` into the query. |
| GlobeCanvas.AutoOpen | components/globe/GlobeCanvas.tsx:234-267 | The popup opens by itself exactly when the session is settled, the user has not joined, the popup is closed, claims are loaded, the globe is shown, there is no `join=true`, and a slot is free; it then opens on the lowest free slot. A user who has joined and arrives with `join=true` gets the popup closed and a notice. In every other case nothing changes. |
| GlobeCanvas.RequestErrorText | components/globe/GlobeCanvas.tsx:98-104 | The thrown text starts with the server's error, or with "Request failed (status)" when there is none. It is exactly that when there are no details or hint. Otherwise `: details` follows the head directly, ` (hint)` ends the text, and the length leaves room for nothing else. |
| GlobeCanvas.HandleWaitlistSubmit | components/globe/GlobeCanvas.tsx:81-145 | No selection fails with "No profile selected". With a selection, an accepted request is always applied; a refused one throws the composed error text, and a rejected one its own message, in both cases shown on the page with nothing else changed. A message is thrown exactly when no claim is applied, and then the claims are untouched. On success the returned row is filed under its slot, other slots are unchanged, the popup closes and the claim is drawn. |
| GlobeCanvas.ServerMessagePassesThrough | components/globe/GlobeCanvas.tsx:98-103 | A server error with only an `error` field reaches the form verbatim. |
| GlobeCanvas.EntriesMap | components/globe/GlobeCanvas.tsx:160-165 | Every listed claim's slot is a key, and each key holds a listed claim of that slot. The last claim listed for a slot wins. |
| GlobeCanvas.CacheFreshness | components/globe/GlobeCanvas.tsx:150-158 | A cache stamped `String(t)` is used at time `now` exactly when `now - t < 300000`. |
| Policies.AlreadyJoinedRefusalsOnNameField | components/waitlist/waitlist-popup.tsx:254-256 | Both of the route's "already joined" refusals, including the different-wallet one, appear as the fixed "already joined" text on the name field. |
| Policies.WalletUsedRefusalOnWalletField | components/waitlist/waitlist-popup.tsx:257-258 | The route's wallet-in-use refusal appears as the fixed wallet-field text. |
| Policies.PositionTakenRefusalVerbatim | components/waitlist/waitlist-popup.tsx:259-260 | The route's taken-slot refusal appears verbatim on the name field. |
| Policies.RegistryMovesWhereRouteRefuses | lib/waitlist-service.ts:304-336 | For a wallet asking for a second, free slot, the local registry moves the claim, while the route answers 400 "already joined" and writes nothing. |
| Policies.FormClaimDrawsSlotAvatar | components/waitlist/waitlist-popup.tsx:227-240 | Take a form claim without an account image that the route accepts. Once applied by the page, it is drawn as a generated "adventurer" avatar whose seed parses back to the claimed slot. |

## Left out

- Rendering and I/O are not modelled. This covers the Three.js scene, textures, the starfield, level of detail, camera motion, the wheel and resize handlers, the loading progress bar and the tooltip's pixel position. The model keeps only the decisions these depend on.
- Timers are effects, not clocks. `setTimeout` and `requestAnimationFrame` appear as effects (`autoRotateAfter`, the applied claim) rather than as deferred execution. Concurrent requests and React's render scheduling are not modelled.
- JSON and URL encoding are left out. The query string is a list of name/value pairs, and the JSON bodies are datatypes. A thrown value that is not an `Error` (the "Failed to join waitlist" fallback) cannot arise in the model.
- Remote error codes are collapsed into fault flags. A lookup error the source reports becomes a boolean in `Faults` or `deleteFails`. A lookup error the source ignores (the slot lookup in both files, the wallet lookup in the registry) is also a flag, and the model reads it as "no row", as the source does. The zero-rows code `PGRST116` is not distinguished from other codes. The insert failure's `details`, `code` and `hint` are dropped from the route's reply.
- Building the server's client is an input flag. A missing configuration makes it throw, which the route answers with a 500; the environment variables themselves are not modelled.
- Other routes and session handling are not modelled: the `me`, `check-wallet` and profile routes, NextAuth, and how the session's e-mail is obtained. Their answers are inputs to the form and to `Post`.
- WaitlistService.GetAllEntries: the remote read is ordered by `created_at`, which is not modelled. Rows come back in table order.
- WaitlistService.GetByProfileIdFromLocalStorage: it returns some holder of the slot. Which one `find` meets first depends on `Map` insertion order, which is not modelled.
- GlobeUtils.CalculateCircleSize: a negative entry count (a `NaN` size in JavaScript) is excluded. Every caller passes the slot count.
- Numbers are not floating point. `Math.sqrt`, `Number(...)` and the spiral's trigonometry are parameters. Sizes and distances are exact reals, and distances are compared squared. `trim` uses a fixed whitespace set.
- `generateId`, `Date.now` and the store's `created_at` are inputs. A missing `created_at` (the `?? Date.now()` fallback) does not arise in the model.
- The avatar image's `onerror` fallback (a placeholder emoji) is not modelled.
- The form's prefill from the signed-in account, its live wallet check while typing, and dialog open/close handling are not modelled.

=== FILE: address_validation.dfy ===
/** The wallet address validator: an ordered classifier over strings.
    The rules are tried in order on the trimmed input: required, Ethereum
    (`0x` prefix), Bitcoin (`1`, `3` or `bc1` prefix), base58 (Solana-shaped),
    generic alphanumeric; whatever is left is rejected. */
module AddressValidation {
  import opened Wrappers
  import opened Text

  datatype ValidationResult = ValidationResult(isValid: bool, error: Option<string>, normalizedAddress: string)

  const RequiredMessage := "Wallet address is required"
  const EthereumMessage := "Invalid Ethereum address format"
  const BitcoinMessage := "Invalid Bitcoin address format"
  const FormatMessage := "Invalid wallet address format"

  predicate IsHexDigit(c: char) {
    ('0' <= c <= '9') || ('a' <= c <= 'f') || ('A' <= c <= 'F')
  }

  /** The base58 alphabet `[1-9A-HJ-NP-Za-km-z]`: no `0`, `I`, `O` or `l`. */
  predicate IsBase58Char(c: char) {
    ('1' <= c <= '9') || ('A' <= c <= 'H') || ('J' <= c <= 'N') || ('P' <= c <= 'Z')
    || ('a' <= c <= 'k') || ('m' <= c <= 'z')
  }

  predicate IsAsciiAlnum(c: char) {
    ('0' <= c <= '9') || ('a' <= c <= 'z') || ('A' <= c <= 'Z')
  }

  /** `/^0x[a-fA-F0-9]{40}$/` */
  predicate MatchesEthereumPattern(t: string) {
    |t| == 42 && StartsWith(t, "0x") && forall i :: 2 <= i < 42 ==> IsHexDigit(t[i])
  }

  predicate HasBitcoinPrefix(t: string) {
    StartsWith(t, "1") || StartsWith(t, "3") || StartsWith(t, "bc1")
  }

  /** `/^[1-9A-HJ-NP-Za-km-z]{32,44}$/` */
  predicate MatchesBase58Pattern(t: string) {
    32 <= |t| <= 44 && forall i :: 0 <= i < |t| ==> IsBase58Char(t[i])
  }

  /** `/^[a-zA-Z0-9]+$/` */
  predicate MatchesAlnumPattern(t: string) {
    |t| > 0 && forall i :: 0 <= i < |t| ==> IsAsciiAlnum(t[i])
  }

  function Accept(t: string): ValidationResult {
    ValidationResult(true, None, t)
  }

  function Reject(message: string, t: string): ValidationResult {
    ValidationResult(false, Some(message), t)
  }

  /** `validateWalletAddress`. The normalized address is always the trimmed
      input; a verdict is valid exactly when it carries no error; each family
      decides alone once its prefix is seen, and later rules are not tried. */
  function ValidateWalletAddress(address: string): (r: ValidationResult)
    ensures r.normalizedAddress == Trim(address)
    ensures r.isValid <==> r.error.None?
    ensures r.error.Some? ==>
      r.error.value in {RequiredMessage, EthereumMessage, BitcoinMessage, FormatMessage}
    ensures IsBlank(address) ==> r == Reject(RequiredMessage, "")
    ensures var t := Trim(address);
      StartsWith(t, "0x") ==>
        && (r.isValid <==> MatchesEthereumPattern(t))
        && (!r.isValid ==> r.error == Some(EthereumMessage))
    ensures var t := Trim(address);
      !StartsWith(t, "0x") && HasBitcoinPrefix(t) ==>
        && (r.isValid <==> 26 <= Utf16Length(t) <= 62)
        && (!r.isValid ==> r.error == Some(BitcoinMessage))
    ensures var t := Trim(address);
      t != [] && !StartsWith(t, "0x") && !HasBitcoinPrefix(t) ==>
        && (r.isValid <==> MatchesBase58Pattern(t) || (20 <= |t| <= 100 && MatchesAlnumPattern(t)))
        && (!r.isValid ==> r.error == Some(FormatMessage))
  {
    var trimmed := Trim(address);
    if address == [] || |trimmed| == 0 then
      Reject(RequiredMessage, "")
    else
      ClassifyTrimmed(trimmed)
  }

  /** The rules after the "required" check, applied to the trimmed text. */
  function ClassifyTrimmed(trimmed: string): (r: ValidationResult)
    ensures r.normalizedAddress == trimmed
    ensures r.isValid <==> r.error.None?
    ensures r.error.Some? ==> r.error.value in {EthereumMessage, BitcoinMessage, FormatMessage}
    ensures StartsWith(trimmed, "0x") ==>
      && (r.isValid <==> MatchesEthereumPattern(trimmed))
      && (!r.isValid ==> r.error == Some(EthereumMessage))
    ensures !StartsWith(trimmed, "0x") && HasBitcoinPrefix(trimmed) ==>
      && (r.isValid <==> 26 <= Utf16Length(trimmed) <= 62)
      && (!r.isValid ==> r.error == Some(BitcoinMessage))
    ensures !StartsWith(trimmed, "0x") && !HasBitcoinPrefix(trimmed) ==>
      && (r.isValid <==> MatchesBase58Pattern(trimmed) || (20 <= |trimmed| <= 100 && MatchesAlnumPattern(trimmed)))
      && (!r.isValid ==> r.error == Some(FormatMessage))
  {
    if StartsWith(trimmed, "0x") then
      if |trimmed| == 42 && MatchesEthereumPattern(trimmed) then Accept(trimmed)
      else Reject(EthereumMessage, trimmed)
    else if StartsWith(trimmed, "1") || StartsWith(trimmed, "3") || StartsWith(trimmed, "bc1") then
      if 26 <= Utf16Length(trimmed) <= 62 then Accept(trimmed)
      else Reject(BitcoinMessage, trimmed)
    else if MatchesBase58Pattern(trimmed) then
      Accept(trimmed)
    else if 20 <= |trimmed| <= 100 && MatchesAlnumPattern(trimmed) then
      Accept(trimmed)
    else
      Reject(FormatMessage, trimmed)
  }

  /** `getAddressErrorMessage`: the validator's error, absent exactly for
      valid addresses. */
  function GetAddressErrorMessage(address: string): (r: Option<string>)
    ensures r == ValidateWalletAddress(address).error
    ensures r.None? <==> ValidateWalletAddress(address).isValid
  {
    ValidateWalletAddress(address).error
  }

  /** Only the trimmed text matters: surrounding whitespace never changes a
      verdict. */
  lemma ValidationSeesTrimmedOnly(address: string)
    ensures ValidateWalletAddress(Trim(address)) == ValidateWalletAddress(address)
  {
    TrimIdempotent(address);
  }

  /** Validating the normalized address again gives the same result. */
  lemma ValidationIdempotent(address: string)
    ensures var r := ValidateWalletAddress(address);
      ValidateWalletAddress(r.normalizedAddress) == r
  {
    ValidationSeesTrimmedOnly(address);
  }

  /** A five-character address is rejected with the generic message and
      normalized to itself. */
  lemma ShortAddressRejected()
    ensures ValidateWalletAddress("short") == Reject(FormatMessage, "short")
  {
    var a := "short";
    assert IsTrimmed(a) by {
      assert a[0] == 's' && a[|a| - 1] == 't';
    }
    TrimmedTextIsClassified(a);
    ShortUnprefixedRejected(a);
  }

  /** Non-blank text without surrounding whitespace goes straight to the
      family rules. */
  lemma TrimmedTextIsClassified(t: string)
    requires t != [] && IsTrimmed(t)
    ensures ValidateWalletAddress(t) == ClassifyTrimmed(t)
  {
    TrimOfTrimmed(t);
  }

  /** Text under 20 characters whose first character starts none of the
      family prefixes falls through every rule. */
  lemma ShortUnprefixedRejected(t: string)
    requires 0 < |t| < 20 && t[0] != '0' && t[0] != '1' && t[0] != '3' && t[0] != 'b'
    ensures ClassifyTrimmed(t) == Reject(FormatMessage, t)
  {
    FirstCharRulesOutPrefixes(t);
  }

  /** Text starting with none of `0`, `1`, `3`, `b` has no family prefix. */
  lemma FirstCharRulesOutPrefixes(t: string)
    requires |t| > 0 && t[0] != '0' && t[0] != '1' && t[0] != '3' && t[0] != 'b'
    ensures !StartsWith(t, "0x") && !HasBitcoinPrefix(t)
  {
    assert |t| >= 2 ==> t[..2][0] == t[0];
    assert |t| >= 3 ==> t[..3][0] == t[0];
    assert t[..1][0] == t[0];
  }

  /** Rule order matters: a 42-character alphanumeric string that the generic
      rule would accept is rejected because it starts with `0x`. */
  lemma EthereumPrefixShadowsGenericRule()
    ensures var a := "0x" + seq(40, _ => 'g');
      && 20 <= |a| <= 100 && MatchesAlnumPattern(a)
      && ValidateWalletAddress(a) == Reject(EthereumMessage, a)
  {
    var a := "0x" + seq(40, _ => 'g');
    assert a[2] == 'g';
    TrimOfTrimmed(a);
  }

  /** The Bitcoin length range counts UTF-16 code units: `1` followed by 13
      astral characters (emoji, say) has JavaScript length 27, not 14, and is
      accepted. */
  lemma AstralBitcoinAddressAccepted(t: string)
    requires |t| == 14 && t[0] == '1'
    requires forall i :: 1 <= i < |t| ==> IsAstral(t[i])
    ensures Utf16Length(t) == 27
    ensures ValidateWalletAddress(t) == Accept(t)
  {
    assert forall i :: 0 <= i < |t[1..]| ==> IsAstral(t[1..][i]) by {
      forall i | 0 <= i < |t[1..]| ensures IsAstral(t[1..][i]) {
        assert t[1..][i] == t[i + 1];
      }
    }
    assert Utf16Length(t[1..]) == 26;
    assert !IsSpace(t[13]) by { assert IsAstral(t[13]); }
    TrimOfTrimmed(t);
    assert StartsWith(t, "1");
  }
}

=== FILE: claim_route.dfy ===
/** The server-side claim decision (`POST` of the waitlist API): a pure
    function from the session, the request body and the table to a response
    and the new table. The checks run in a fixed order (identity, then
    wallet, then slot), which decides which conflict a user is told about.
    Unlike the client-side registry, an existing claim is never moved. */
module ClaimRoute {
  import opened Wrappers
  import opened Table

  const UnauthorizedMessage := "Unauthorized. Please sign in."
  const MissingFieldsMessage := "Missing required fields"
  const NoIdentityMessage := "Unable to identify user. Please sign in again."
  const UserCheckFailedMessage := "Error checking user status"
  /** The opening both "already joined" answers share. Long texts are
      written as concatenations of short literals. */
  const AlreadyJoinedOpening := "You have already joined" + " the waitlist with this Twitter account"
  const SameWalletOtherSlotMessage := AlreadyJoinedOpening + " and wallet address"
  const OtherWalletMessage := AlreadyJoinedOpening + " using a different wallet address."
    + " Each Twitter account can only be linked to one wallet address."
  const WalletCheckFailedMessage := "Error checking wallet address"
  const WalletUsedMessage := "This wallet address" + " has already been used" + " by another account"
  const PositionTakenMessage := "This position is already taken"
  const InsertFailedMessage := "Failed to create waitlist entry"
  const InternalErrorMessage := "Internal server error"

  /** The session's user; `None` when there is no session or no user in it. */
  datatype SessionUser = SessionUser(email: Option<string>)

  /** The parsed JSON body; a missing string field is the empty string and a
      missing `profileId` is 0, both falsy as in the source. */
  datatype ClaimBody = ClaimBody(
    name: string,
    walletAddress: string,
    avatar: string,
    avatarType: AvatarType,
    avatarSeed: Option<string>,
    avatarStyle: Option<string>,
    profileId: int)

  /** The remote failures a request can meet. `clientFails`: building the
      client throws (missing configuration), which the outer `catch` turns
      into a 500. `userLookupFails`, `walletLookupFails`, `insertFails`: the
      query returns an error the route reports. `slotLookupFails`: the slot
      query returns an error, which the route never reads: its `data` is
      null, so the slot reads as free. */
  datatype Faults = Faults(clientFails: bool, userLookupFails: bool, walletLookupFails: bool,
                           slotLookupFails: bool, insertFails: bool)

  const NoFaults := Faults(false, false, false, false, false)

  /** The id and `created_at` the store assigns to an inserted row. */
  datatype Ids = Ids(rowId: string, createdAt: int)

  /** `Existing`: the stored claim echoed back (every column but `user_id`);
      `Created`: the inserted row; `Error`: the `error` string. */
  datatype Reply = Existing(row: Row) | Created(row: Row) | Error(message: string)

  datatype Response = Response(status: int, reply: Reply)

  datatype PostOutcome = PostOutcome(response: Response, rows: seq<Row>)

  /** JavaScript's `s || null` on an optional string. */
  function NonEmptyOrNone(s: Option<string>): (r: Option<string>)
    ensures r.Some? <==> s.Some? && s.value != ""
    ensures r.Some? ==> r == s
  {
    if s.Some? && s.value != "" then s else None
  }

  /** The user identifier: the session's e-mail when it is non-empty. */
  function UserIdOf(user: SessionUser): Option<string> {
    if user.email.Some? && user.email.value != "" then user.email else None
  }

  predicate HasRequiredFields(b: ClaimBody) {
    b.name != "" && b.walletAddress != "" && b.avatar != "" && b.profileId != 0
  }

  function Fail(status: int, message: string, rows: seq<Row>): PostOutcome {
    PostOutcome(Response(status, Error(message)), rows)
  }

  /** The decision sequence of `POST`. `body` is `None` when the request body
      is not JSON. Only a `Created` reply changes the table, by appending
      exactly one row owned by the session's user. */
  function Post(session: Option<SessionUser>, body: Option<ClaimBody>, rows: seq<Row>, faults: Faults, ids: Ids): (r: PostOutcome)
    ensures r.response.status in {200, 400, 401, 500}
    ensures r.response.status == 200 <==> !r.response.reply.Error?
    ensures session.None? ==> r == Fail(401, UnauthorizedMessage, rows)
    ensures session.Some? && body.Some? && !HasRequiredFields(body.value) ==>
      r == Fail(400, MissingFieldsMessage, rows)
    ensures session.Some? && body.Some? && HasRequiredFields(body.value) && faults.clientFails ==>
      r == Fail(500, InternalErrorMessage, rows)
    ensures session.Some? && body.Some? && HasRequiredFields(body.value) && !faults.clientFails
            && UserIdOf(session.value).None? ==>
      r == Fail(400, NoIdentityMessage, rows)
    // the 500 answers: an unreadable body, a client that cannot be built,
    // a failed user or wallet lookup, a failed insert; none writes
    ensures session.Some? && body.None? ==> r == Fail(500, InternalErrorMessage, rows)
    ensures Identified(session, body) && !faults.clientFails && faults.userLookupFails ==>
      r == Fail(500, UserCheckFailedMessage, rows)
    ensures Identified(session, body) && !faults.clientFails && !faults.userLookupFails
            && Lookup(rows, ByUser(UserIdOf(session.value).value)).None? && faults.walletLookupFails ==>
      r == Fail(500, WalletCheckFailedMessage, rows)
    ensures Identified(session, body) && !faults.clientFails && !faults.userLookupFails
            && Lookup(rows, ByUser(UserIdOf(session.value).value)).None? && !faults.walletLookupFails
            && Lookup(rows, ByWallet(body.value.walletAddress)).None?
            && (faults.slotLookupFails || Lookup(rows, BySlot(body.value.profileId)).None?)
            && faults.insertFails ==>
      r == Fail(500, InsertFailedMessage, rows)
    ensures r.response.status == 500 ==>
      && r.rows == rows
      && (body.None? || faults.clientFails || faults.userLookupFails || faults.walletLookupFails || faults.insertFails)
    ensures r.response.reply.Existing? ==> r.rows == rows && r.response.reply.row in rows
    ensures r.rows != rows ==>
      && r.response.reply.Created?
      && r.rows == rows + [r.response.reply.row]
    ensures r.response.reply.Created? ==>
      var row := r.response.reply.row;
      && session.Some? && body.Some?
      && row.userId == UserIdOf(session.value) && row.userId.Some?
      && row.walletAddress == body.value.walletAddress
      && row.profileId == body.value.profileId
      && row.name == body.value.name
      && row.avatar == body.value.avatar
      && row.avatarType == body.value.avatarType
      && row.avatarSeed == NonEmptyOrNone(body.value.avatarSeed)
      && row.avatarStyle == NonEmptyOrNone(body.value.avatarStyle)
      && row.id == ids.rowId && row.createdAt == ids.createdAt
  {
    match session
    case None => Fail(401, UnauthorizedMessage, rows)
    case Some(user) =>
      match body
      case None => Fail(500, InternalErrorMessage, rows)
      case Some(b) =>
        if !HasRequiredFields(b) then
          Fail(400, MissingFieldsMessage, rows)
        else if faults.clientFails then
          Fail(500, InternalErrorMessage, rows)
        else
          match UserIdOf(user)
          case None => Fail(400, NoIdentityMessage, rows)
          case Some(userId) =>
            if faults.userLookupFails then
              Fail(500, UserCheckFailedMessage, rows)
            else
              match Lookup(rows, ByUser(userId))
              case Some(existing) =>
                if existing.walletAddress == b.walletAddress then
                  if existing.profileId == b.profileId then
                    PostOutcome(Response(200, Existing(existing)), rows)
                  else
                    Fail(400, SameWalletOtherSlotMessage, rows)
                else
                  Fail(400, OtherWalletMessage, rows)
              case None =>
                if faults.walletLookupFails then
                  Fail(500, WalletCheckFailedMessage, rows)
                else if Lookup(rows, ByWallet(b.walletAddress)).Some? then
                  Fail(400, WalletUsedMessage, rows)
                else if !faults.slotLookupFails && Lookup(rows, BySlot(b.profileId)).Some? then
                  Fail(400, PositionTakenMessage, rows)
                else if faults.insertFails then
                  Fail(500, InsertFailedMessage, rows)
                else
                  var row := Row(ids.rowId, b.name, b.walletAddress, b.avatar, b.avatarType,
                                 NonEmptyOrNone(b.avatarSeed), NonEmptyOrNone(b.avatarStyle),
                                 b.profileId, Some(userId), ids.createdAt);
                  PostOutcome(Response(200, Created(row)), rows + [row])
  }

  /** A well-formed request from an identified user. */
  predicate Identified(session: Option<SessionUser>, body: Option<ClaimBody>) {
    session.Some? && body.Some? && HasRequiredFields(body.value) && UserIdOf(session.value).Some?
  }

  /** Identity is checked first: a user who already has a row is answered
      from that row, whatever the wallet and slot conflicts. Same wallet and
      slot: the row is returned and nothing is inserted; anything else: 400. */
  lemma IdentityDecidesFirst(session: Option<SessionUser>, body: Option<ClaimBody>, rows: seq<Row>, ids: Ids, existing: Row)
    requires UniqueKeys(rows) && Identified(session, body)
    requires existing in rows && existing.userId == UserIdOf(session.value)
    ensures var r := Post(session, body, rows, NoFaults, ids);
      var b := body.value;
      && r.rows == rows
      && (existing.walletAddress == b.walletAddress && existing.profileId == b.profileId ==>
            r.response == Response(200, Existing(existing)))
      && (existing.walletAddress == b.walletAddress && existing.profileId != b.profileId ==>
            r.response == Response(400, Error(SameWalletOtherSlotMessage)))
      && (existing.walletAddress != b.walletAddress ==>
            r.response == Response(400, Error(OtherWalletMessage)))
  {
    var userId := UserIdOf(session.value).value;
    UniqueKeysLookups(rows, "", 0, userId);
    LookupUnique(rows, ByUser(userId));
    var found := Lookup(rows, ByUser(userId)).value;
    assert found == existing by {
      var i, j :| 0 <= i < |rows| && rows[i] == found && 0 <= j < |rows| && rows[j] == existing;
    }
  }

  /** Wallet is checked second: with no row for this user, a wallet already in
      some row is refused with the wallet message, whatever the slot. */
  lemma WalletDecidesSecond(session: Option<SessionUser>, body: Option<ClaimBody>, rows: seq<Row>, ids: Ids)
    requires UniqueKeys(rows) && Identified(session, body)
    requires forall x :: x in rows ==> x.userId != UserIdOf(session.value)
    requires exists x :: x in rows && x.walletAddress == body.value.walletAddress
    ensures Post(session, body, rows, NoFaults, ids) == Fail(400, WalletUsedMessage, rows)
  {
    var userId := UserIdOf(session.value).value;
    var b := body.value;
    UniqueKeysLookups(rows, b.walletAddress, b.profileId, userId);
    LookupUnique(rows, ByUser(userId));
    LookupUnique(rows, ByWallet(b.walletAddress));
  }

  /** Slot is checked last: with no row for this user or this wallet, a slot
      in some row is refused as taken. */
  lemma SlotDecidesLast(session: Option<SessionUser>, body: Option<ClaimBody>, rows: seq<Row>, ids: Ids)
    requires UniqueKeys(rows) && Identified(session, body)
    requires forall x :: x in rows ==> x.userId != UserIdOf(session.value)
    requires forall x :: x in rows ==> x.walletAddress != body.value.walletAddress
    requires exists x :: x in rows && x.profileId == body.value.profileId
    ensures Post(session, body, rows, NoFaults, ids) == Fail(400, PositionTakenMessage, rows)
  {
    var userId := UserIdOf(session.value).value;
    var b := body.value;
    UniqueKeysLookups(rows, b.walletAddress, b.profileId, userId);
    LookupUnique(rows, ByUser(userId));
    LookupUnique(rows, ByWallet(b.walletAddress));
    LookupUnique(rows, BySlot(b.profileId));
  }

  /** With no conflict at all, exactly one row is inserted. */
  lemma FreeClaimInserts(session: Option<SessionUser>, body: Option<ClaimBody>, rows: seq<Row>, ids: Ids)
    requires UniqueKeys(rows) && Identified(session, body)
    requires forall x :: x in rows ==>
      && x.userId != UserIdOf(session.value)
      && x.walletAddress != body.value.walletAddress
      && x.profileId != body.value.profileId
    ensures var r := Post(session, body, rows, NoFaults, ids);
      r.response.reply.Created? && r.rows == rows + [r.response.reply.row]
  {
    var userId := UserIdOf(session.value).value;
    var b := body.value;
    UniqueKeysLookups(rows, b.walletAddress, b.profileId, userId);
    LookupUnique(rows, ByUser(userId));
    LookupUnique(rows, ByWallet(b.walletAddress));
    LookupUnique(rows, BySlot(b.profileId));
  }

  /** Applied one request at a time, the route keeps one row per user, per
      wallet and per slot, as long as the slot query does not fail (see
      `SlotLookupFailureDuplicatesSlot` for what happens when it does). */
  lemma PostKeepsKeysUnique(session: Option<SessionUser>, body: Option<ClaimBody>, rows: seq<Row>, faults: Faults, ids: Ids)
    requires UniqueKeys(rows) && !faults.slotLookupFails
    ensures UniqueKeys(Post(session, body, rows, faults, ids).rows)
  {
    var r := Post(session, body, rows, faults, ids);
    if r.rows != rows {
      var b := body.value;
      var userId := UserIdOf(session.value).value;
      UniqueKeysLookups(rows, b.walletAddress, b.profileId, userId);
      LookupUnique(rows, ByUser(userId));
      LookupUnique(rows, ByWallet(b.walletAddress));
      LookupUnique(rows, BySlot(b.profileId));
      var rows' := r.rows;
      forall i, j | 0 <= i < j < |rows'|
        ensures rows'[i].walletAddress != rows'[j].walletAddress
        ensures rows'[i].profileId != rows'[j].profileId
        ensures rows'[i].userId.Some? ==> rows'[i].userId != rows'[j].userId
      {
        if j == |rows| {
          assert rows'[i] == rows[i] && rows[i] in rows;
          assert !ByUser(userId)(rows[i]);
          assert !ByWallet(b.walletAddress)(rows[i]);
          assert !BySlot(b.profileId)(rows[i]);
        } else {
          assert rows'[i] == rows[i] && rows'[j] == rows[j];
        }
      }
    }
  }

  /** The slot query's error is never read: when it fails, a new user with
      an unused wallet is given a slot another row already holds, and the
      table ends up with two rows on that slot. */
  lemma SlotLookupFailureDuplicatesSlot(session: Option<SessionUser>, body: Option<ClaimBody>, rows: seq<Row>,
                                        ids: Ids, held: Row)
    requires UniqueKeys(rows) && Identified(session, body)
    requires forall x :: x in rows ==>
      x.userId != UserIdOf(session.value) && x.walletAddress != body.value.walletAddress
    requires held in rows && held.profileId == body.value.profileId
    ensures var r := Post(session, body, rows, NoFaults.(slotLookupFails := true), ids);
      && r.response.status == 200 && r.response.reply.Created?
      && r.rows == rows + [r.response.reply.row]
      && !UniqueKeys(r.rows)
  {
    var userId := UserIdOf(session.value).value;
    var b := body.value;
    UniqueKeysLookups(rows, b.walletAddress, b.profileId, userId);
    LookupUnique(rows, ByUser(userId));
    LookupUnique(rows, ByWallet(b.walletAddress));
    var r := Post(session, body, rows, NoFaults.(slotLookupFails := true), ids);
    var i :| 0 <= i < |rows| && rows[i] == held;
    assert r.rows[i] == held && r.rows[|rows|].profileId == held.profileId;
  }

  /** Re-submitting an accepted claim returns the stored record (same id)
      and creates no second row. */
  lemma ResubmitReturnsStoredClaim(session: Option<SessionUser>, body: Option<ClaimBody>, rows: seq<Row>, ids1: Ids, ids2: Ids)
    requires UniqueKeys(rows)
    requires Post(session, body, rows, NoFaults, ids1).response.reply.Created?
    ensures var first := Post(session, body, rows, NoFaults, ids1);
      var second := Post(session, body, first.rows, NoFaults, ids2);
      && second.rows == first.rows
      && second.response == Response(200, Existing(first.response.reply.row))
  {
    var first := Post(session, body, rows, NoFaults, ids1);
    PostKeepsKeysUnique(session, body, rows, NoFaults, ids1);
    var row := first.response.reply.row;
    assert row in first.rows;
    IdentityDecidesFirst(session, body, first.rows, ids2, row);
  }

  /** Two new users asking for one slot with different wallets, on an
      empty table: the first is inserted and the second is refused as
      taken. */
  lemma SecondClaimOnSameSlot(sa: Option<SessionUser>, a: Option<ClaimBody>, ida: Ids,
                              sb: Option<SessionUser>, b: Option<ClaimBody>, idb: Ids)
    requires Identified(sa, a) && Identified(sb, b)
    requires UserIdOf(sa.value) != UserIdOf(sb.value)
    requires a.value.walletAddress != b.value.walletAddress
    requires a.value.profileId == b.value.profileId
    ensures var first := Post(sa, a, [], NoFaults, ida);
      && first.response.status == 200 && first.response.reply.Created?
      && first.response.reply.row.profileId == a.value.profileId
      && Post(sb, b, first.rows, NoFaults, idb) == Fail(400, PositionTakenMessage, first.rows)
  {
    var row := FirstClaimInserted(sa, a, ida);
    SlotDecidesLast(sb, b, [row], idb);
  }

  /** On an empty table a complete claim is inserted as the only row. */
  lemma FirstClaimInserted(session: Option<SessionUser>, body: Option<ClaimBody>, ids: Ids) returns (row: Row)
    requires Identified(session, body)
    ensures var first := Post(session, body, [], NoFaults, ids);
      && first.response.status == 200 && first.response.reply == Created(row)
      && first.rows == [row]
      && row.userId == UserIdOf(session.value)
      && row.walletAddress == body.value.walletAddress
      && row.profileId == body.value.profileId
  {
    FreeClaimInserts(session, body, [], ids);
    row := Post(session, body, [], NoFaults, ids).response.reply.row;
  }

  /** Two users asking for slot 5 with different wallets: the first gets
      the slot and the second is told it is taken. */
  lemma SecondClaimOnSameSlotIsRefused()
    ensures var a := ClaimBody("A", "0xABCD", "a.png", Upload, None, None, 5);
      var b := ClaimBody("B", "0xBEEF", "b.png", Upload, None, None, 5);
      var first := Post(Some(SessionUser(Some("a@x"))), Some(a), [], NoFaults, Ids("id-a", 1));
      var second := Post(Some(SessionUser(Some("b@x"))), Some(b), first.rows, NoFaults, Ids("id-b", 2));
      && first.response.status == 200 && first.response.reply.Created?
      && first.response.reply.row.profileId == 5
      && second == Fail(400, PositionTakenMessage, first.rows)
  {
    var a := ClaimBody("A", "0xABCD", "a.png", Upload, None, None, 5);
    var b := ClaimBody("B", "0xBEEF", "b.png", Upload, None, None, 5);
    assert "a@x"[0] != "b@x"[0] && "0xABCD"[2] != "0xBEEF"[2];
    SecondClaimOnSameSlot(Some(SessionUser(Some("a@x"))), Some(a), Ids("id-a", 1),
                          Some(SessionUser(Some("b@x"))), Some(b), Ids("id-b", 2));
  }
}

=== FILE: decimal.dfy ===
/** The decimal spelling of integers read back: `parseInt(String(i), 10)`
    is `i`, and `String(i)` is a non-empty, trimmed string. */
module Decimal {
  import opened Wrappers
  import opened Text

  lemma DigitRoundTrip(d: nat)
    requires d < 10
    ensures DigitValue(DigitChar(d)) == d
  {
  }

  lemma {:induction false} DecimalValueOfNat(n: nat)
    ensures DecimalValue(NatToDecimal(n)) == n
  {
    if n < 10 {
      DigitRoundTrip(n);
    } else {
      var s := NatToDecimal(n);
      assert s[..|s| - 1] == NatToDecimal(n / 10);
      DecimalValueOfNat(n / 10);
      DigitRoundTrip(n % 10);
    }
  }

  lemma {:induction false} LeadingDigitsOfDigits(s: string)
    requires forall i :: 0 <= i < |s| ==> IsDigit(s[i])
    ensures LeadingDigits(s) == s
  {
    if |s| > 0 {
      LeadingDigitsOfDigits(s[1..]);
    }
  }

  lemma DigitNotSpace(c: char)
    requires IsDigit(c)
    ensures !IsSpace(c)
  {
  }

  /** A string not starting with whitespace is its own `TrimStart`. */
  lemma TrimStartOfNonSpace(s: string)
    requires |s| > 0 && !IsSpace(s[0])
    ensures TrimStart(s) == s
  {
  }

  /** A run of digits starts with no whitespace to skip. */
  lemma TrimStartOfDigits(ds: string)
    requires |ds| > 0 && IsDigit(ds[0])
    ensures TrimStart(ds) == ds
  {
    DigitNotSpace(ds[0]);
    TrimStartOfNonSpace(ds);
  }

  /** `parseInt` of an unsigned run of digits with nothing to skip is the
      number the digits denote. */
  lemma ParseIntOfUnsigned(s: string)
    requires |s| > 0 && forall i :: 0 <= i < |s| ==> IsDigit(s[i])
    requires TrimStart(s) == s && s[0] != '-' && s[0] != '+'
    ensures ParseInt(s) == Some(DecimalValue(s) as int)
  {
    LeadingDigitsOfDigits(s);
    var t := TrimStart(s);
    assert t == s && !(t[0] == '-' || t[0] == '+');
    assert LeadingDigits(t) == s;
  }

  /** `parseInt` of a non-empty run of digits is the number they denote. */
  lemma ParseIntOfDigits(ds: string)
    requires |ds| > 0 && forall i :: 0 <= i < |ds| ==> IsDigit(ds[i])
    ensures ParseInt(ds) == Some(DecimalValue(ds) as int)
  {
    TrimStartOfDigits(ds);
    ParseIntOfUnsigned(ds);
  }

  /** A minus sign is not whitespace. */
  lemma TrimStartOfMinus(ds: string)
    ensures TrimStart("-" + ds) == "-" + ds
  {
    var s := "-" + ds;
    assert s[0] == '-';
    TrimStartOfNonSpace(s);
  }

  /** `parseInt` of a minus sign before a run of digits, with nothing to
      skip, is the negated number the digits denote. */
  lemma ParseIntOfSigned(s: string, ds: string)
    requires |ds| > 0 && forall i :: 0 <= i < |ds| ==> IsDigit(ds[i])
    requires |s| > 0 && s[0] == '-' && s[1..] == ds && TrimStart(s) == s
    ensures ParseInt(s) == Some(-(DecimalValue(ds) as int))
  {
    LeadingDigitsOfDigits(ds);
    var t := TrimStart(s);
    assert |t| > 0 && t[0] == '-' && t[1..] == ds;
    assert LeadingDigits(t[1..]) == ds;
  }

  /** `parseInt` of a minus sign and a non-empty run of digits is the
      negated number they denote. */
  lemma ParseIntOfMinusDigits(ds: string)
    requires |ds| > 0 && forall i :: 0 <= i < |ds| ==> IsDigit(ds[i])
    ensures ParseInt("-" + ds) == Some(-(DecimalValue(ds) as int))
  {
    TrimStartOfMinus(ds);
    var s := "-" + ds;
    assert s[0] == '-' && s[1..] == ds;
    ParseIntOfSigned(s, ds);
  }

  /** `parseInt(String(i), 10) == i`: the decimal spelling reads back. */
  lemma ParseIntOfIntToString(i: int)
    ensures ParseInt(IntToString(i)) == Some(i)
  {
    var n: nat := if i < 0 then -i else i;
    DecimalValueOfNat(n);
    if i < 0 {
      ParseIntOfMinusDigits(NatToDecimal(n));
    } else {
      ParseIntOfDigits(NatToDecimal(n));
    }
  }

  /** `String(i)` never has surrounding whitespace and is never empty. */
  lemma IntToStringShape(i: int)
    ensures IntToString(i) != [] && IsTrimmed(IntToString(i))
  {
    var s := IntToString(i);
    var d := NatToDecimal(if i < 0 then -i else i);
    assert s[|s| - 1] == d[|d| - 1];
  }
}

=== FILE: gestures.dfy ===
/** The globe's pointer handlers as state-transition functions over the
    boolean and counter part of the globe state. Rotation angles, camera
    zoom and the raycasting behind hover and click are left to the
    surroundings: a handler returns the new state together with the effects
    it asks for. Distances are compared squared, which agrees with comparing
    `Math.sqrt` of them against a non-negative threshold. */
module Gestures {
  import opened Wrappers
  import opened GlobeConstants

  datatype Point = Point(x: real, y: real)

  /** A mouse event at a point, or a touch event with the number of touches
      on the surface (`touches.length`), the point of the first touch
      (`touches[0]`, or `changedTouches[0]` when a touch ends) and the
      distance between the first two touches. */
  datatype PointerEvent =
    | Mouse(at: Point)
    | Touch(touchCount: nat, at: Point, spread: real)

  datatype GestureState = GestureState(
    isDragging: bool,
    isMouseDown: bool,
    isAutoRotating: bool,
    isPinching: bool,
    touchCount: nat,
    lastPinchDistance: real,
    mouse: Point,
    start: Point,
    mouseDownTime: int)

  /** The state the globe starts in: idle and rotating on its own. */
  const Initial := GestureState(false, false, true, false, 0, 0.0, Point(0.0, 0.0), Point(0.0, 0.0), 0)

  /** What a handler asks of its surroundings: hide the tooltip, scale the
      camera distance, run the hover test, run the click callback, or
      resume auto-rotation after a delay in milliseconds. */
  datatype Effects = Effects(
    hideTooltip: bool,
    zoomFactor: Option<real>,
    hover: bool,
    click: bool,
    autoRotateAfter: Option<int>)

  const NoEffects := Effects(false, None, false, false, None)

  datatype Step = Step(state: GestureState, effects: Effects)

  const PinchStep: real := 2.0
  const ClickMaxTime: int := 500
  const ClickMaxDistance: real := 30.0
  const PinchResumeDelay: int := 1000

  function SquaredDistance(a: Point, b: Point): real {
    (a.x - b.x) * (a.x - b.x) + (a.y - b.y) * (a.y - b.y)
  }

  function Abs(x: real): real {
    if x < 0.0 then -x else x
  }

  /** A drag or release never leaves the globe dragged without the pointer
      held, and a pinch is only ever recorded with at least two touches. */
  predicate Consistent(s: GestureState) {
    && (s.isDragging ==> s.isMouseDown)
    && (s.isPinching ==> s.touchCount >= 2)
  }

  predicate StartsPinch(e: PointerEvent) {
    e.Touch? && e.touchCount > 1
  }

  /** `createMouseDownHandler`. Two or more touches start a pinch and stop
      auto-rotation, leaving the press flags alone; otherwise the pointer is
      pressed at the event point and any pinch ends. */
  function MouseDown(s: GestureState, e: PointerEvent, now: int): (r: Step)
    ensures r.effects == NoEffects.(hideTooltip := true)
    ensures StartsPinch(e) ==>
      && r.state.isPinching && !r.state.isAutoRotating
      && r.state.touchCount == e.touchCount && r.state.lastPinchDistance == e.spread
      && r.state.isMouseDown == s.isMouseDown && r.state.isDragging == s.isDragging
      && r.state.start == s.start && r.state.mouse == s.mouse && r.state.mouseDownTime == s.mouseDownTime
    ensures !StartsPinch(e) ==>
      && r.state.isMouseDown && !r.state.isDragging && !r.state.isPinching
      && r.state.start == e.at && r.state.mouse == e.at && r.state.mouseDownTime == now
      && r.state.isAutoRotating == s.isAutoRotating
      && r.state.touchCount == s.touchCount && r.state.lastPinchDistance == s.lastPinchDistance
    ensures Consistent(s) ==> Consistent(r.state)
  {
    var effects := NoEffects.(hideTooltip := true);
    if StartsPinch(e) then
      Step(s.(isPinching := true, touchCount := e.touchCount, lastPinchDistance := e.spread,
              isAutoRotating := false), effects)
    else
      Step(s.(isMouseDown := true, isDragging := false, isPinching := false, mouseDownTime := now,
              mouse := e.at, start := e.at), effects)
  }

  /** `createMouseMoveHandler`. */
  function MouseMove(s: GestureState, e: PointerEvent): (r: Step)
    // a pinch move only ever records a new distance, and zooms exactly when
    // the distance changed by more than 2 px: in when the fingers spread
    ensures StartsPinch(e) && s.isPinching ==>
      && r.state == s.(lastPinchDistance := r.state.lastPinchDistance)
      && (r.effects.zoomFactor.Some? <==> Abs(e.spread - s.lastPinchDistance) > PinchStep)
      && (r.effects.zoomFactor.Some? ==>
            && r.state.lastPinchDistance == e.spread
            && (r.effects.zoomFactor.value < 1.0 <==> e.spread > s.lastPinchDistance))
      && (r.effects.zoomFactor.None? ==> r.state == s)
    // a drag starts only from a pressed, undragged, unpinched pointer that
    // travelled strictly further than the threshold, and stops auto-rotation
    ensures !s.isDragging && r.state.isDragging ==>
      && s.isMouseDown && !s.isPinching
      && SquaredDistance(e.at, s.start) > DragThreshold(e.Touch?) * DragThreshold(e.Touch?)
      && !r.state.isAutoRotating
    ensures !(StartsPinch(e) && s.isPinching) && s.isMouseDown && !s.isDragging && !s.isPinching ==>
      (r.state.isDragging <==> SquaredDistance(e.at, s.start) > DragThreshold(e.Touch?) * DragThreshold(e.Touch?))
    // hover runs exactly when the pointer is neither pressed nor pinching
    ensures r.effects.hover ==> !s.isMouseDown && !s.isPinching
    ensures Consistent(s) ==>
      (r.effects.hover <==> !(StartsPinch(e) && s.isPinching) && !s.isMouseDown && !s.isPinching)
    // an ordinary move never ends a drag, never touches the press data or
    // the pinch distance, changes auto-rotation only by starting a drag,
    // and follows the pointer exactly while dragging
    ensures !(StartsPinch(e) && s.isPinching) ==>
      && (s.isDragging ==> r.state.isDragging)
      && r.state.start == s.start && r.state.mouseDownTime == s.mouseDownTime
      && r.state.lastPinchDistance == s.lastPinchDistance
      && (!(!s.isDragging && r.state.isDragging) ==> r.state.isAutoRotating == s.isAutoRotating)
      && r.state.mouse == (if r.state.isDragging && !s.isPinching then e.at else s.mouse)
      && r.effects.zoomFactor.None?
    ensures r.state.isMouseDown == s.isMouseDown && r.state.isPinching == s.isPinching
    ensures r.state.touchCount == s.touchCount && !r.effects.click
    ensures Consistent(s) ==> Consistent(r.state)
  {
    if StartsPinch(e) && s.isPinching then
      var change := e.spread - s.lastPinchDistance;
      if Abs(change) > PinchStep then
        Step(s.(lastPinchDistance := e.spread),
             NoEffects.(zoomFactor := Some(if change > 0.0 then 0.98 else 1.02)))
      else
        Step(s, NoEffects)
    else
      var threshold := DragThreshold(e.Touch?);
      var s1 :=
        if s.isMouseDown && !s.isDragging && !s.isPinching
           && SquaredDistance(e.at, s.start) > threshold * threshold
        then s.(isDragging := true, isAutoRotating := false)
        else s;
      if s1.isDragging && !s1.isPinching then
        Step(s1.(mouse := e.at), NoEffects)
      else
        Step(s1, NoEffects.(hover := !s1.isMouseDown && !s1.isPinching))
  }

  /** `createMouseUpHandler`. */
  function MouseUp(s: GestureState, e: PointerEvent, now: int): (r: Step)
    // a touch release during a pinch: with fewer than two touches left the
    // pinch ends and auto-rotation resumes after 1000 ms; else nothing happens
    ensures e.Touch? && s.isPinching ==>
      && !r.effects.click
      && (e.touchCount < 2 ==>
            && r.state == s.(isPinching := false, touchCount := 0)
            && r.effects.autoRotateAfter == Some(PinchResumeDelay))
      && (e.touchCount >= 2 ==> r == Step(s, NoEffects))
    // every other release lets go of the pointer
    ensures !(e.Touch? && s.isPinching) ==> !r.state.isMouseDown && !r.state.isDragging
    // and leaves the pinch, the touches and the press data alone
    ensures !(e.Touch? && s.isPinching) ==>
      && r.state.isPinching == s.isPinching && r.state.touchCount == s.touchCount
      && r.state.lastPinchDistance == s.lastPinchDistance
      && r.state.start == s.start && r.state.mouse == s.mouse && r.state.mouseDownTime == s.mouseDownTime
      && (!r.effects.click ==> r.state.isAutoRotating == s.isAutoRotating)
    // a click is a short press that barely moved, not during a pinch
    ensures r.effects.click <==>
      && !(e.Touch? && s.isPinching)
      && now - s.mouseDownTime < ClickMaxTime
      && SquaredDistance(e.at, s.start) < ClickMaxDistance * ClickMaxDistance
      && s.isMouseDown && !s.isPinching
    ensures r.effects.click ==> (r.state.isAutoRotating <==> !s.isDragging || s.isAutoRotating)
    ensures !(e.Touch? && s.isPinching) ==>
      (r.effects.autoRotateAfter == Some(AutoRotateDelay) <==> !r.effects.click && s.isDragging)
    ensures Consistent(s) ==> Consistent(r.state)
  {
    if e.Touch? && s.isPinching then
      if e.touchCount < 2 then
        Step(s.(isPinching := false, touchCount := 0), NoEffects.(autoRotateAfter := Some(PinchResumeDelay)))
      else
        Step(s, NoEffects)
    else
      var wasClick := now - s.mouseDownTime < ClickMaxTime
                      && SquaredDistance(e.at, s.start) < ClickMaxDistance * ClickMaxDistance;
      var clicked := wasClick && s.isMouseDown && !s.isPinching;
      var rotating := if clicked && !s.isDragging then true else s.isAutoRotating;
      var resume := if !clicked && s.isDragging then Some(AutoRotateDelay) else None;
      Step(s.(isMouseDown := false, isDragging := false, isAutoRotating := rotating),
           NoEffects.(click := clicked, autoRotateAfter := resume))
  }

  /** One thing that can happen to the globe: a handler runs, or a
      scheduled auto-rotation timer fires. */
  datatype Input =
    | Down(event: PointerEvent, time: int)
    | Move(event: PointerEvent)
    | Up(event: PointerEvent, time: int)
    | AutoRotateTimer

  function Apply(s: GestureState, input: Input): (r: Step)
    ensures Consistent(s) ==> Consistent(r.state)
  {
    match input
    case Down(e, t) => MouseDown(s, e, t)
    case Move(e) => MouseMove(s, e)
    case Up(e, t) => MouseUp(s, e, t)
    case AutoRotateTimer => Step(s.(isAutoRotating := true), NoEffects)
  }

  function Run(s: GestureState, inputs: seq<Input>): GestureState
    decreases |inputs|
  {
    if |inputs| == 0 then s else Run(Apply(s, inputs[0]).state, inputs[1..])
  }

  /** Whatever happens, a dragged globe is a pressed one and a pinch has at
      least two touches. */
  lemma {:induction false} RunKeepsConsistent(s: GestureState, inputs: seq<Input>)
    requires Consistent(s)
    ensures Consistent(Run(s, inputs))
    decreases |inputs|
  {
    if |inputs| > 0 {
      RunKeepsConsistent(Apply(s, inputs[0]).state, inputs[1..]);
    }
  }

  lemma InitialIsConsistent()
    ensures Consistent(Initial)
  {
  }

  /** A quick press and release at one point is a click and restarts
      auto-rotation. */
  lemma TapIsClick(s: GestureState, p: Point, t: int)
    requires !s.isPinching
    ensures var down := MouseDown(s, Mouse(p), t).state;
      var up := MouseUp(down, Mouse(p), t + 100);
      && up.effects.click && up.state.isAutoRotating
      && !up.state.isMouseDown && !up.state.isDragging
  {
    var down := MouseDown(s, Mouse(p), t).state;
    assert !StartsPinch(Mouse(p));
    assert down.start == p && down.mouseDownTime == t;
    assert SquaredDistance(p, p) == 0.0;
  }

  /** A mouse moved 20 px is a drag (over 15 px) and still a click on release
      (under 30 px): the click fires, and because the globe was dragged,
      auto-rotation stays off and no resume is scheduled. */
  lemma ShortDragStillClicks()
    ensures var down := MouseDown(Initial, Mouse(Point(0.0, 0.0)), 0).state;
      var moved := MouseMove(down, Mouse(Point(20.0, 0.0))).state;
      var up := MouseUp(moved, Mouse(Point(20.0, 0.0)), 100);
      && moved.isDragging
      && up.effects.click
      && !up.state.isAutoRotating
      && up.effects.autoRotateAfter.None?
  {
    var down := MouseDown(Initial, Mouse(Point(0.0, 0.0)), 0).state;
    assert SquaredDistance(Point(20.0, 0.0), down.start) == 400.0;
  }

  /** A two-finger pinch never produces a click: its release ends the pinch
      and schedules auto-rotation after 1000 ms. */
  lemma PinchReleaseIsNoClick(s: GestureState, p: Point, spread: real, t: int)
    ensures var pinched := MouseDown(s, Touch(2, p, spread), t).state;
      var up := MouseUp(pinched, Touch(1, p, 0.0), t + 50);
      && !up.effects.click
      && !up.state.isPinching
      && up.effects.autoRotateAfter == Some(PinchResumeDelay)
  {
  }
}

=== FILE: globe_canvas.dfy ===
/** The page component around the globe: which slot the join button picks,
    how the popup follows the `join` and `spot` query parameters, how a
    submission's answer updates the claims map, and when cached claims are
    used. The page's state is a record; the address bar's query is part of
    it, and `router.replace` sets it. `limit` is the number of slots,
    `SpotCount` of the configured maximum. */
module GlobeCanvas {
  import opened Wrappers
  import opened Text
  import opened Decimal
  import opened Keyed
  import opened Table
  import opened WaitlistService
  import opened ClaimRoute
  import opened WaitlistPopup

  const AlreadyJoinedNotice := "You have already joined the waitlist."
  const AlreadyJoinedWithAccountNotice := "You have already joined the waitlist with this Twitter account."
  const NoSpotsNotice := "No available spots at the moment."
  const NoProfileMessage := "No profile selected"
  const CacheMaxAge: int := 300000

  // ---------------------------------------------------------------------
  // Query parameters (`URLSearchParams`)

  type Params = seq<(string, string)>

  /** `get`: the value of the first pair with that name. */
  function GetParam(params: Params, name: string): (r: Option<string>)
    ensures r.None? <==> forall i :: 0 <= i < |params| ==> params[i].0 != name
    ensures r.Some? ==> exists i :: 0 <= i < |params| && params[i] == (name, r.value)
                                   && forall j :: 0 <= j < i ==> params[j].0 != name
  {
    if |params| == 0 then None
    else if params[0].0 == name then Some(params[0].1)
    else GetParam(params[1..], name)
  }

  /** `delete`: every pair with that name goes, the others keep their order. */
  function DeleteParam(params: Params, name: string): (r: Params)
    ensures GetParam(r, name).None?
    ensures forall n :: n != name ==> GetParam(r, n) == GetParam(params, n)
    ensures r == [] <==> forall i :: 0 <= i < |params| ==> params[i].0 == name
  {
    if |params| == 0 then []
    else if params[0].0 == name then DeleteParam(params[1..], name)
    else [params[0]] + DeleteParam(params[1..], name)
  }

  /** `set`: the first pair with that name gets the value and the later ones
      go; without such a pair, one is appended. */
  function SetParam(params: Params, name: string, value: string): (r: Params)
    ensures GetParam(r, name) == Some(value)
    ensures forall n :: n != name ==> GetParam(r, n) == GetParam(params, n)
    ensures r != []
  {
    if |params| == 0 then [(name, value)]
    else if params[0].0 == name then [(name, value)] + DeleteParam(params[1..], name)
    else [params[0]] + SetParam(params[1..], name, value)
  }

  // ---------------------------------------------------------------------
  // Page state

  datatype CanvasState = CanvasState(
    popupOpen: bool,
    selected: Option<int>,
    error: Option<string>,
    entries: map<int, AppEntry>,
    alreadyJoined: bool,
    query: Params)

  /** `openPopup`: select the slot, open the popup, clear the notice, and
      put `join=true` (and `spot=<id>` for a non-zero id) in the query,
      keeping every other parameter. */
  function OpenPopup(st: CanvasState, profileId: int): (r: CanvasState)
    ensures r.popupOpen && r.selected == Some(profileId) && r.error.None?
    ensures GetParam(r.query, "join") == Some("true")
    ensures profileId != 0 ==> GetParam(r.query, "spot") == Some(IntToString(profileId))
    ensures forall n :: n != "join" && n != "spot" ==> GetParam(r.query, n) == GetParam(st.query, n)
    ensures r.entries == st.entries && r.alreadyJoined == st.alreadyJoined
  {
    var withJoin := SetParam(st.query, "join", "true");
    var query := if profileId != 0 then SetParam(withJoin, "spot", IntToString(profileId)) else withJoin;
    st.(selected := Some(profileId), popupOpen := true, error := None, query := query)
  }

  /** `closePopup`: close, deselect, clear the notice, and drop `join` and
      `spot` from the query, keeping every other parameter. The address
      becomes the bare `/waitlist` exactly when no other parameter was
      present. */
  function ClosePopup(st: CanvasState): (r: CanvasState)
    ensures !r.popupOpen && r.selected.None? && r.error.None?
    ensures GetParam(r.query, "join").None? && GetParam(r.query, "spot").None?
    ensures forall n :: n != "join" && n != "spot" ==> GetParam(r.query, n) == GetParam(st.query, n)
    ensures r.query == [] <==> forall i :: 0 <= i < |st.query| ==> st.query[i].0 in {"join", "spot"}
    ensures r.entries == st.entries && r.alreadyJoined == st.alreadyJoined
  {
    var query := DeleteParam(DeleteParam(st.query, "join"), "spot");
    assert query == [] <==> forall i :: 0 <= i < |st.query| ==> st.query[i].0 in {"join", "spot"} by {
      if query == [] {
        forall i | 0 <= i < |st.query| ensures st.query[i].0 in {"join", "spot"} {
          assert GetParam(st.query, st.query[i].0).Some?;
        }
      } else {
        var n := query[0].0;
        assert GetParam(query, n).Some?;
      }
    }
    st.(popupOpen := false, selected := None, error := None, query := query)
  }

  /** `searchParams.get(name) || ""`. */
  function ParamOrEmpty(query: Params, name: string): string {
    GetParam(query, name).GetOr("")
  }

  /** The slot a `spot` parameter asks for, if it is a slot of the globe. */
  function RequestedSpot(spot: string, limit: nat): (r: Option<int>)
    ensures r.Some? ==> 0 < r.value <= limit && ParseInt(spot) == r
    ensures r.None? <==> spot == "" || ParseInt(spot).None? || !(0 < ParseInt(spot).value <= limit)
  {
    if spot == "" then None
    else match ParseInt(spot)
      case None => None
      case Some(id) => if 0 < id <= limit then Some(id) else None
  }

  /** The URL-sync effect: `join=true` with a valid slot opens the popup on
      that slot; a query without `join=true` closes an open popup; anything
      else changes nothing. The query itself is never changed. */
  function SyncFromUrl(st: CanvasState, limit: nat): (r: CanvasState)
    ensures r.query == st.query && r.entries == st.entries && r.alreadyJoined == st.alreadyJoined
    ensures ParamOrEmpty(st.query, "join") == "true" ==>
      match RequestedSpot(ParamOrEmpty(st.query, "spot"), limit)
      case Some(id) =>
        && r.popupOpen && r.selected == Some(id)
        && r.error == (if st.popupOpen && st.selected == Some(id) then st.error else None)
      case None => r == st
    ensures ParamOrEmpty(st.query, "join") != "true" ==>
      !r.popupOpen && (st.popupOpen ==> r.selected.None? && r.error.None?) && (!st.popupOpen ==> r == st)
  {
    var join := ParamOrEmpty(st.query, "join");
    var spot := ParamOrEmpty(st.query, "spot");
    if join == "true" && spot != "" then
      match RequestedSpot(spot, limit)
      case Some(id) =>
        if !st.popupOpen || st.selected != Some(id) then
          st.(selected := Some(id), popupOpen := true, error := None)
        else st
      case None => st
    else if join != "true" && st.popupOpen then
      st.(popupOpen := false, selected := None, error := None)
    else st
  }

  /** Opening the popup on a slot of the globe writes a query that the sync
      effect reads back as the same open popup: nothing changes. */
  lemma SyncAfterOpenIsStable(st: CanvasState, id: int, limit: nat)
    requires 0 < id <= limit
    ensures SyncFromUrl(OpenPopup(st, id), limit) == OpenPopup(st, id)
  {
    var shown := OpenPopup(st, id);
    ParseIntOfIntToString(id);
    IntToStringShape(id);
    assert ParamOrEmpty(shown.query, "spot") == IntToString(id);
  }

  /** Closing the popup writes a query the sync effect leaves alone. */
  lemma SyncAfterCloseIsStable(st: CanvasState, limit: nat)
    ensures SyncFromUrl(ClosePopup(st), limit) == ClosePopup(st)
  {
  }

  // ---------------------------------------------------------------------
  // Choosing a slot

  /** The lowest slot in `1..limit` with no claim. */
  method FirstFreeSpot(entries: map<int, AppEntry>, limit: nat) returns (chosen: Option<int>)
    ensures chosen.Some? ==> 1 <= chosen.value <= limit && chosen.value !in entries
    ensures chosen.Some? ==> forall j :: 1 <= j < chosen.value ==> j in entries
    ensures chosen.None? <==> forall j :: 1 <= j <= limit ==> j in entries
  {
    var i := 1;
    while i <= limit
      invariant 1 <= i <= limit + 1
      invariant forall j :: 1 <= j < i ==> j in entries
    {
      if i !in entries {
        return Some(i);
      }
      i := i + 1;
    }
    return None;
  }

  /** The join button: a user who already joined is told so; otherwise the
      lowest free slot is opened, or the user is told that none is free. */
  method JoinButton(st: CanvasState, limit: nat) returns (r: CanvasState)
    ensures st.alreadyJoined ==> r == st.(error := Some(AlreadyJoinedNotice))
    ensures !st.alreadyJoined && (forall j :: 1 <= j <= limit ==> j in st.entries) ==>
      r == st.(error := Some(NoSpotsNotice))
    ensures !st.alreadyJoined && (exists j :: 1 <= j <= limit && j !in st.entries) ==>
      && r.selected.Some? && 1 <= r.selected.value <= limit
      && r.selected.value !in st.entries
      && (forall j :: 1 <= j < r.selected.value ==> j in st.entries)
      && r == OpenPopup(st, r.selected.value)
  {
    if st.alreadyJoined {
      return st.(error := Some(AlreadyJoinedNotice));
    }
    var chosen := FirstFreeSpot(st.entries, limit);
    if chosen.None? {
      return st.(error := Some(NoSpotsNotice));
    }
    r := OpenPopup(st, chosen.value);
  }

  /** A click on an empty slot of the globe. */
  function EmptySpotClick(st: CanvasState, profileId: int): (r: CanvasState)
    ensures st.alreadyJoined ==> r == st.(error := Some(AlreadyJoinedNotice))
    ensures !st.alreadyJoined ==> r.popupOpen && r.selected == Some(profileId)
    ensures !st.alreadyJoined ==> r == OpenPopup(st, profileId)
  {
    if st.alreadyJoined then st.(error := Some(AlreadyJoinedNotice)) else OpenPopup(st, profileId)
  }

  /** What the page knows about loading and the session. */
  datatype PageFlags = PageFlags(
    isAuthenticated: bool,
    isAuthLoading: bool,
    hasCheckedUserStatus: bool,
    loading: bool,
    isGlobeVisible: bool)

  /** The session is settled: signed in, not loading, status checked. */
  predicate SessionReady(flags: PageFlags) {
    flags.isAuthenticated && !flags.isAuthLoading && flags.hasCheckedUserStatus
  }

  /** Every condition of the auto-open effect's first branch. */
  predicate AutoOpenArmed(st: CanvasState, flags: PageFlags) {
    && SessionReady(flags) && !st.alreadyJoined && !st.popupOpen
    && !flags.loading && flags.isGlobeVisible && |st.entries| > 0
    && ParamOrEmpty(st.query, "join") != "true"
  }

  /** The auto-open effect: a signed-in user who has not joined, with the
      globe shown, claims loaded and no `join=true` in the query, gets the
      popup on the lowest free slot; a user who has joined and arrives with
      `join=true` gets the popup closed and a notice; otherwise nothing
      changes. */
  method AutoOpen(st: CanvasState, flags: PageFlags, limit: nat) returns (r: CanvasState)
    ensures r.popupOpen && !st.popupOpen ==>
      && AutoOpenArmed(st, flags)
      && r.selected.Some? && 1 <= r.selected.value <= limit && r.selected.value !in st.entries
      && (forall j :: 1 <= j < r.selected.value ==> j in st.entries)
    ensures AutoOpenArmed(st, flags) && (exists j :: 1 <= j <= limit && j !in st.entries) ==>
      && r.selected.Some? && 1 <= r.selected.value <= limit
      && r.selected.value !in st.entries
      && (forall j :: 1 <= j < r.selected.value ==> j in st.entries)
      && r == OpenPopup(st, r.selected.value)
    ensures AutoOpenArmed(st, flags) && (forall j :: 1 <= j <= limit ==> j in st.entries) ==> r == st
    ensures SessionReady(flags) && st.alreadyJoined && ParamOrEmpty(st.query, "join") == "true" ==>
      r == ClosePopup(st).(error := Some(AlreadyJoinedWithAccountNotice))
    ensures !AutoOpenArmed(st, flags) && !(SessionReady(flags) && st.alreadyJoined && ParamOrEmpty(st.query, "join") == "true") ==>
      r == st
    ensures r.entries == st.entries
  {
    var join := ParamOrEmpty(st.query, "join");
    if AutoOpenArmed(st, flags) {
      var chosen := FirstFreeSpot(st.entries, limit);
      if chosen.Some? {
        return OpenPopup(st, chosen.value);
      }
      return st;
    } else if SessionReady(flags) && st.alreadyJoined && join == "true" {
      return ClosePopup(st).(error := Some(AlreadyJoinedWithAccountNotice));
    }
    return st;
  }

  // ---------------------------------------------------------------------
  // Submitting

  /** The request body: the form's entry with the selected slot. Fields the
      form left undefined are absent from the JSON. */
  function RequestBody(data: EntryData, profileId: int): ClaimBody {
    ClaimBody(data.name, data.walletAddress, data.avatar, data.avatarType,
              data.avatarSeed, data.avatarStyle, profileId)
  }

  /** The fields of a failed response's JSON body (all absent when the body
      is not JSON). */
  datatype ErrorBody = ErrorBody(error: Option<string>, details: Option<string>, hint: Option<string>)

  /** How the request ended: a 2xx answer with the stored row, a non-2xx
      answer, or a rejected `fetch` carrying an error message. */
  datatype FetchResult =
    | Accepted(row: Row)
    | Refused(status: int, body: ErrorBody)
    | Rejected(message: string)

  /** The thrown message for a refused request:
      `${error || "Request failed (status)"}${": " + details}${" (" + hint + ")"}`,
      each optional part present when its field is a non-empty string. */
  function RequestErrorText(status: int, body: ErrorBody): (r: string)
    ensures Truthy(body.error) ==> StartsWith(r, body.error.value)
    ensures !Truthy(body.error) ==> StartsWith(r, "Request failed (" + IntToString(status) + ")")
    ensures !Truthy(body.details) && !Truthy(body.hint) ==> r == ErrorHead(status, body)
    // after the head come exactly the details part and then the hint part
    ensures |r| == |ErrorHead(status, body)|
                   + (if Truthy(body.details) then 2 + |body.details.value| else 0)
                   + (if Truthy(body.hint) then 3 + |body.hint.value| else 0)
    ensures Truthy(body.details) ==>
      var h := |ErrorHead(status, body)|;
      r[h..h + 2 + |body.details.value|] == ": " + body.details.value
    ensures Truthy(body.hint) ==>
      r[|r| - (3 + |body.hint.value|)..] == " (" + body.hint.value + ")"
  {
    var head := ErrorHead(status, body);
    var details := if Truthy(body.details) then ": " + body.details.value else "";
    var hint := if Truthy(body.hint) then " (" + body.hint.value + ")" else "";
    var r := head + details + hint;
    assert r[..|head|] == head;
    assert r[|head|..|head| + |details|] == details;
    assert r[|r| - |hint|..] == hint;
    r
  }

  /** The leading part of a refused request's message: the server's `error`
      when it is a non-empty string, else the status line. */
  function ErrorHead(status: int, body: ErrorBody): string {
    if Truthy(body.error) then body.error.value else "Request failed (" + IntToString(status) + ")"
  }

  /** The page state after a submission, the message thrown back to the
      form (if any) and the claim to draw on the globe (if any). */
  datatype SubmitResult = SubmitResult(state: CanvasState, thrown: Option<string>, applied: Option<AppEntry>)

  /** `handleWaitlistSubmit`. On success the claims map gains the stored row
      at its slot, the popup closes and the claim is drawn; on failure the
      message is both shown and thrown back, and the claims are untouched. */
  function HandleWaitlistSubmit(st: CanvasState, fetched: FetchResult): (r: SubmitResult)
    ensures st.selected.None? ==>
      r == SubmitResult(st.(error := Some(NoProfileMessage)), Some(NoProfileMessage), None)
    ensures r.thrown.None? <==> r.applied.Some?
    ensures r.thrown.Some? ==> r.state.entries == st.entries && r.state.error == r.thrown
    ensures r.thrown.Some? ==> r.state == st.(error := r.thrown)
    ensures st.selected.Some? && fetched.Accepted? ==>
      r.applied == Some(DbToApp(fetched.row)) && r.thrown.None?
    ensures st.selected.Some? && fetched.Refused? ==>
      r == SubmitResult(st.(error := Some(RequestErrorText(fetched.status, fetched.body))),
                        Some(RequestErrorText(fetched.status, fetched.body)), None)
    ensures st.selected.Some? && fetched.Rejected? ==>
      r == SubmitResult(st.(error := Some(fetched.message)), Some(fetched.message), None)
    ensures r.applied.Some? ==>
      && st.selected.Some? && fetched.Accepted?
      && r.applied.value == DbToApp(fetched.row)
      && r.state.entries.Keys == st.entries.Keys + {fetched.row.profileId}
      && r.state.entries[fetched.row.profileId] == r.applied.value
      && (forall k :: k in st.entries && k != fetched.row.profileId ==> r.state.entries[k] == st.entries[k])
      && !r.state.popupOpen && r.state.error.None?
  {
    var cleared := st.(error := None);
    if st.selected.None? then
      SubmitResult(cleared.(error := Some(NoProfileMessage)), Some(NoProfileMessage), None)
    else
      match fetched
      case Accepted(row) =>
        var entry := DbToApp(row);
        var updated := cleared.(entries := cleared.entries[entry.profileId := entry]);
        SubmitResult(ClosePopup(updated).(error := None), None, Some(entry))
      case Refused(status, body) =>
        var message := RequestErrorText(status, body);
        SubmitResult(cleared.(error := Some(message)), Some(message), None)
      case Rejected(message) =>
        SubmitResult(cleared.(error := Some(message)), Some(message), None)
  }

  /** A server error with only an `error` field reaches the form verbatim. */
  lemma ServerMessagePassesThrough(st: CanvasState, status: int, message: string)
    requires st.selected.Some? && message != ""
    ensures HandleWaitlistSubmit(st, Refused(status, ErrorBody(Some(message), None, None))).thrown == Some(message)
  {
  }

  // ---------------------------------------------------------------------
  // Loading claims

  function ProfileIdOf(e: AppEntry): int {
    e.profileId
  }

  /** The claims map built from a list: each claim under its slot, a later
      claim for the same slot replacing an earlier one. */
  function EntriesMap(list: seq<AppEntry>): (m: map<int, AppEntry>)
    ensures forall i :: 0 <= i < |list| ==> list[i].profileId in m
    ensures forall k :: k in m ==> m[k].profileId == k && m[k] in list
    ensures forall i :: IsLastWithKey(list, ProfileIdOf, i) ==> m[list[i].profileId] == list[i]
  {
    KeyByContents(list, ProfileIdOf);
    KeyBy(list, ProfileIdOf)
  }

  /** Cached claims are used when both cache entries are non-empty and the
      stored time is less than five minutes old. An unreadable time makes
      the age `NaN`, which is never fresh. */
  predicate UseCache(cached: Option<string>, stamp: Option<string>, now: int) {
    && Truthy(cached) && Truthy(stamp)
    && match ParseInt(stamp.value)
       case None => false
       case Some(t) => now - t < CacheMaxAge
  }

  /** A cache written at time `t` (stored as `String(t)`) is used at time
      `now` exactly when it is less than 300000 ms old. */
  lemma CacheFreshness(cached: string, t: int, now: int)
    requires cached != ""
    ensures UseCache(Some(cached), Some(IntToString(t)), now) <==> now - t < CacheMaxAge
  {
    ParseIntOfIntToString(t);
    IntToStringShape(t);
  }
}

=== FILE: globe_constants.dfy ===
/** The globe's numeric configuration and the slot-count rule derived from
    the environment. Numbers are JavaScript numbers, modelled as `real`; the
    result of `Number(s)` on a string is either finite or not (`NaN`,
    `Infinity`, `-Infinity`). */
module GlobeConstants {
  import opened Wrappers

  /** The value of JavaScript's `Number(s)`. */
  datatype JsNumber = Finite(value: real) | NonFinite

  const DefaultSpots: real := 1000.0
  const MinSpots: real := 200.0
  const MaxSpotsLimit: real := 10000.0

  /** Circle radius bounds for one device class. */
  datatype CircleSizes = CircleSizes(base: real, min: real, max: real)

  const MobileSizes := CircleSizes(18.0, 12.0, 26.0)
  const DesktopSizes := CircleSizes(24.0, 12.0, 35.0)

  const ReferenceEntries: real := 250.0
  const SphereRadius: real := 300.0

  const ZoomMinMobile: real := 200.0
  const ZoomMaxMobile: real := 2000.0
  const ZoomMinDesktop: real := 200.0
  const ZoomMaxDesktop: real := 2000.0

  const DragThresholdMobile: real := 25.0
  const DragThresholdDesktop: real := 15.0
  const ClickDebounceTime: int := 500
  const TooltipDuration: int := 3000
  const AutoRotateDelay: int := 2000

  const Colors: seq<string> := ["#DE6635", "#8B4513", "#A0522D", "#CD853F", "#D2691E", "#B8860B"]

  /** `Math.max(lo, Math.min(hi, x))`. */
  function Clamp(lo: real, hi: real, x: real): (r: real)
    requires lo <= hi
    ensures lo <= r <= hi
    ensures lo <= x <= hi ==> r == x
    ensures x < lo ==> r == lo
    ensures hi < x ==> r == hi
  {
    var upper := if hi < x then hi else x;
    if lo < upper then upper else lo
  }

  /** `CONFIGURED_SPOTS`: `Number(env || 1000)`, where an unset or empty
      variable falls back to 1000 before the conversion. */
  function ConfiguredSpots(env: Option<string>, toNumber: string -> JsNumber): JsNumber {
    if env.None? || env.value == "" then Finite(DefaultSpots) else toNumber(env.value)
  }

  /** `MAX_SPOTS`: the configured value when finite (else 1000), clamped to
      [200, 10000]. */
  function MaxSpots(env: Option<string>, toNumber: string -> JsNumber): (r: real)
    ensures MinSpots <= r <= MaxSpotsLimit
    ensures env.None? || env == Some("") ==> r == DefaultSpots
    ensures env.Some? && env.value != "" ==>
      match toNumber(env.value)
      case NonFinite => r == DefaultSpots
      case Finite(v) =>
        && (MinSpots <= v <= MaxSpotsLimit ==> r == v)
        && (v < MinSpots ==> r == MinSpots)
        && (MaxSpotsLimit < v ==> r == MaxSpotsLimit)
  {
    var configured := ConfiguredSpots(env, toNumber);
    Clamp(MinSpots, MaxSpotsLimit, if configured.Finite? then configured.value else DefaultSpots)
  }

  /** The number of slots `1..MAX_SPOTS` the globe shows: the largest
      integer not above `MAX_SPOTS`, so an integer `i` satisfies
      `i <= MAX_SPOTS` exactly when `i <= SpotCount`. */
  function SpotCount(env: Option<string>, toNumber: string -> JsNumber): (n: nat)
    ensures 200 <= n <= 10000
    ensures n as real <= MaxSpots(env, toNumber) < n as real + 1.0
  {
    MaxSpots(env, toNumber).Floor
  }

  /** An integer slot id is within `MAX_SPOTS` exactly when it is within
      `SpotCount`. */
  lemma WithinSpotCount(env: Option<string>, toNumber: string -> JsNumber, i: int)
    ensures i as real <= MaxSpots(env, toNumber) <==> i <= SpotCount(env, toNumber)
  {
    var n := SpotCount(env, toNumber);
    if i > n {
      assert i as real >= n as real + 1.0;
    }
  }

  /** Circle sizes for a device class: the mobile flag selects the mobile
      configuration; both keep `min <= base <= max`. */
  function SizesFor(isMobile: bool): (c: CircleSizes)
    ensures 0.0 < c.min <= c.base <= c.max
    ensures isMobile ==> c.max == 26.0
    ensures !isMobile ==> c.max == 35.0
  {
    if isMobile then MobileSizes else DesktopSizes
  }

  /** The camera's distance bounds for a device class. */
  function ZoomRange(isMobile: bool): (r: (real, real))
    ensures 0.0 < r.0 < r.1
  {
    if isMobile then (ZoomMinMobile, ZoomMaxMobile) else (ZoomMinDesktop, ZoomMaxDesktop)
  }

  /** The pointer travel that starts a drag: larger for touch than for a mouse. */
  function DragThreshold(isTouch: bool): (t: real)
    ensures DragThresholdDesktop <= t <= DragThresholdMobile
    ensures isTouch <==> t > DragThresholdDesktop
  {
    if isTouch then DragThresholdMobile else DragThresholdDesktop
  }
}

=== FILE: globe_hook.dfy ===
/** The display rules of the globe hook: which avatar source a claim is
    drawn from, what the hover tooltip says, how clicks are debounced and
    dispatched, and how a slot's mesh record changes when a claim is applied
    or cleared. Textures, raycasting and image loading are left to the
    surroundings: a mesh's appearance records the source it is drawn from. */
module GlobeHook {
  import opened Wrappers
  import opened Text
  import opened Decimal
  import opened Table
  import opened WaitlistService
  import opened GlobeConstants
  import opened GlobeUtils

  const DefaultStyle := "adventurer"
  const DefaultEmoji := "\U{1F600}"

  /** Where a claimed slot's picture comes from: a generated avatar with a
      style and seed, a remote image URL, an inline `data:` image, or emoji
      text drawn on a canvas. */
  datatype AvatarSource =
    | Generated(style: string, seed: string)
    | RemoteImage(url: string)
    | InlineImage(url: string)
    | EmojiText(text: string)

  predicate IsHttpImage(avatar: string) {
    StartsWith(avatar, "https://") || StartsWith(avatar, "http://")
  }

  predicate IsDataImage(avatar: string) {
    StartsWith(avatar, "data:")
  }

  /** The style a generated avatar uses: the stored style trimmed, unless it
      is missing or blank. */
  function StyleOf(style: Option<string>): (r: string)
    ensures r != "" && IsTrimmed(r)
    ensures r == DefaultStyle || (style.Some? && r == Trim(style.value))
    ensures style.Some? && !IsBlank(style.value) ==> r == Trim(style.value)
  {
    if style.Some? && style.value != "" && Trim(style.value) != "" then Trim(style.value)
    else
      assert DefaultStyle[0] == 'a' && DefaultStyle[|DefaultStyle| - 1] == 'r';
      DefaultStyle
  }

  /** The seed a generated avatar uses: the stored seed unless it is
      missing or empty, else the slot number in decimal. */
  function SeedOf(seed: Option<string>, profileId: int): (r: string)
    ensures r != ""
    ensures seed.Some? && seed.value != "" ==> r == seed.value
    ensures seed.None? || seed == Some("") ==> ParseInt(r) == Some(profileId)
  {
    if seed.Some? && seed.value != "" then seed.value
    else
      IntToStringShape(profileId);
      ParseIntOfIntToString(profileId);
      IntToString(profileId)
  }

  /** The avatar-source choice of `applyEntryToGlobe`: a seeded avatar wins
      over any URL test; otherwise an http(s) avatar is fetched, a `data:`
      avatar is decoded, and anything else is drawn as emoji text. */
  function AvatarSourceOf(e: AppEntry): (r: AvatarSource)
    ensures e.avatarType == AvatarSeed <==> r.Generated?
    ensures r.Generated? ==> r == Generated(StyleOf(e.avatarStyle), SeedOf(e.avatarSeed, e.profileId))
    ensures e.avatarType == Upload ==>
      && (r.RemoteImage? <==> IsHttpImage(e.avatar))
      && (r.InlineImage? <==> !IsHttpImage(e.avatar) && IsDataImage(e.avatar))
    ensures r.RemoteImage? || r.InlineImage? ==> r.url == e.avatar
    ensures r.EmojiText? ==> r.text != "" && r.text == (if e.avatar == "" then DefaultEmoji else e.avatar)
  {
    if e.avatarType == AvatarSeed then
      Generated(StyleOf(e.avatarStyle), SeedOf(e.avatarSeed, e.profileId))
    else if IsHttpImage(e.avatar) then
      RemoteImage(e.avatar)
    else if IsDataImage(e.avatar) then
      InlineImage(e.avatar)
    else
      EmojiText(if e.avatar != "" then e.avatar else DefaultEmoji)
  }

  /** The hover tooltip's image test. */
  predicate HasImage(e: AppEntry) {
    e.avatarType == AvatarSeed || IsHttpImage(e.avatar) || IsDataImage(e.avatar)
  }

  /** The "No PFP" badge shows exactly for claims drawn as emoji text. */
  lemma NoPfpBadgeIffEmoji(e: AppEntry)
    ensures !HasImage(e) <==> AvatarSourceOf(e).EmojiText?
  {
  }

  /** The tooltip's username: a name starting with `@` is kept; a name with
      a later `@` is cut to start there; any other non-blank name is trimmed
      and prefixed with `@`; a blank name stays as it is. */
  function NormalizeUsername(name: string): (r: string)
    ensures StartsWith(name, "@") ==> r == name
    ensures !StartsWith(name, "@") && '@' in name ==>
      var k := IndexOf(name, '@').value;
      0 < k && r == name[k..]
    ensures '@' !in name && !IsBlank(name) ==> r == "@" + Trim(name)
    ensures '@' !in name && IsBlank(name) ==> r == name
  {
    var u := FromFirstAt(name);
    if !StartsWith(u, "@") && Trim(u) != "" then "@" + Trim(u) else u
  }

  /** The name from its first `@` on; the whole name when it has none. */
  function FromFirstAt(name: string): (u: string)
    ensures StartsWith(name, "@") ==> u == name
    ensures '@' !in name ==> u == name
    ensures StartsWith(u, "@") <==> '@' in name
    ensures !StartsWith(name, "@") && '@' in name ==>
      0 < IndexOf(name, '@').value && u == name[IndexOf(name, '@').value..]
  {
    if StartsWith(name, "@") then
      assert name[..1][0] == name[0];
      name
    else match IndexOf(name, '@')
      case Some(k) =>
        assert name[0] != '@' by {
          assert name[..1][0] == name[0];
        }
        assert name[k..][..1] == [name[k]];
        name[k..]
      case None =>
        assert |name| > 0 ==> name[..1][0] == name[0];
        name
  }

  /** Every shown username starts with `@`, unless the name was blank. */
  lemma UsernameShape(name: string)
    ensures var r := NormalizeUsername(name);
      StartsWith(r, "@") || (r == name && IsBlank(name))
  {
    var r := NormalizeUsername(name);
    if !StartsWith(name, "@") && '@' in name {
      var k := IndexOf(name, '@').value;
      assert r[0] == name[k] == '@';
    }
  }

  /** Normalizing a shown username again changes nothing. */
  lemma NormalizeUsernameIdempotent(name: string)
    ensures NormalizeUsername(NormalizeUsername(name)) == NormalizeUsername(name)
  {
    UsernameShape(name);
    var r := NormalizeUsername(name);
    if !StartsWith(r, "@") {
      assert IsBlank(r);
    }
  }

  /** The hover tooltip: an available slot, or a member's username with the
      badge flag. */
  datatype Tooltip = AvailableSpot | Member(username: string, noPfp: bool)

  function HoverTooltip(entry: Option<AppEntry>): (r: Tooltip)
    ensures entry.None? <==> r == AvailableSpot
    ensures r.Member? ==>
      && (r.noPfp <==> AvatarSourceOf(entry.value).EmojiText?)
      && (StartsWith(r.username, "@") || IsBlank(entry.value.name))
    ensures r.Member? ==> r.username == NormalizeUsername(entry.value.name)
  {
    match entry
    case None => AvailableSpot
    case Some(e) =>
      NoPfpBadgeIffEmoji(e);
      UsernameShape(e.name);
      Member(NormalizeUsername(e.name), !HasImage(e))
  }

  // ---------------------------------------------------------------------
  // Clicks

  /** What an accepted click does: nothing was hit, a claimed slot shows
      its member's name, or an empty slot is offered to the caller. */
  datatype ClickAction = Debounced | Missed | ShowMember(name: string) | OpenEmptySpot(id: int)

  datatype ClickOutcome = ClickOutcome(lastClickTime: int, action: ClickAction)

  /** The click callback: a click less than 500 ms after the last accepted
      one is ignored; otherwise it is accepted, its time is recorded, and
      the slot under the pointer (if any) is dispatched. */
  function HandleClick(lastClickTime: int, now: int, hit: Option<int>, entries: map<int, AppEntry>): (r: ClickOutcome)
    ensures r.action.Debounced? <==> now - lastClickTime < ClickDebounceTime
    ensures r.action.Debounced? ==> r.lastClickTime == lastClickTime
    ensures !r.action.Debounced? ==> r.lastClickTime == now
    ensures !r.action.Debounced? ==>
      && (hit.None? <==> r.action.Missed?)
      && (hit.Some? ==> (hit.value in entries <==> r.action.ShowMember?))
      && (hit.Some? ==> (hit.value !in entries <==> r.action == OpenEmptySpot(hit.value)))
    ensures r.action.ShowMember? ==> r.action.name == entries[hit.value].name
  {
    if now - lastClickTime < ClickDebounceTime then
      ClickOutcome(lastClickTime, Debounced)
    else
      var action :=
        match hit
        case None => Missed
        case Some(id) => if id in entries then ShowMember(entries[id].name) else OpenEmptySpot(id);
      ClickOutcome(now, action)
  }

  /** The times of the clicks accepted from a sequence of click times. */
  function AcceptedClicks(lastClickTime: int, times: seq<int>): seq<int>
    decreases |times|
  {
    if |times| == 0 then []
    else
      var r := HandleClick(lastClickTime, times[0], None, map[]);
      (if r.action.Debounced? then [] else [times[0]]) + AcceptedClicks(r.lastClickTime, times[1..])
  }

  /** Accepted clicks are at least 500 ms apart, and the first is at least
      500 ms after the last click accepted before. */
  lemma {:induction false} AcceptedClicksAreSpaced(lastClickTime: int, times: seq<int>)
    ensures var a := AcceptedClicks(lastClickTime, times);
      && (|a| > 0 ==> a[0] - lastClickTime >= ClickDebounceTime)
      && forall i :: 0 <= i < |a| - 1 ==> a[i + 1] - a[i] >= ClickDebounceTime
    decreases |times|
  {
    if |times| > 0 {
      var r := HandleClick(lastClickTime, times[0], None, map[]);
      AcceptedClicksAreSpaced(r.lastClickTime, times[1..]);
      var rest := AcceptedClicks(r.lastClickTime, times[1..]);
      var a := AcceptedClicks(lastClickTime, times);
      if !r.action.Debounced? {
        assert r.lastClickTime == times[0] && times[0] - lastClickTime >= ClickDebounceTime;
        assert a == [times[0]] + rest;
        forall i | 0 <= i < |a| - 1 ensures a[i + 1] - a[i] >= ClickDebounceTime {
          if i > 0 {
            assert a[i] == rest[i - 1] && a[i + 1] == rest[i];
          }
        }
      } else {
        assert r.lastClickTime == lastClickTime;
        assert a == rest;
      }
    }
  }

  // ---------------------------------------------------------------------
  // Slot meshes

  /** The record a slot's mesh carries. */
  datatype UserData = UserData(id: int, name: string, role: string, color: string, position: Vec, isWaitlisted: bool)

  /** How a slot is drawn: its plain colour, or a claim's picture. */
  datatype Appearance = Plain(color: string) | Picture(source: AvatarSource)

  datatype Mesh = Mesh(userData: UserData, appearance: Appearance)

  /** A fresh slot mesh: the slot record, not waitlisted, in its colour. */
  function InitialMesh(p: Profile): Mesh {
    Mesh(UserData(p.id, p.name, p.role, p.color, p.position, false), Plain(p.color))
  }

  /** `profileMeshes.find(mesh => mesh.userData.id === id)`, as an index. */
  function FindMesh(meshes: seq<Mesh>, id: int): (r: Option<nat>)
    ensures r.Some? ==> r.value < |meshes| && meshes[r.value].userData.id == id
    ensures r.Some? ==> forall j :: 0 <= j < r.value ==> meshes[j].userData.id != id
    ensures r.None? <==> forall j :: 0 <= j < |meshes| ==> meshes[j].userData.id != id
  {
    if |meshes| == 0 then None
    else if meshes[0].userData.id == id then Some(0)
    else match FindMesh(meshes[1..], id)
      case None => None
      case Some(k) => Some(k + 1)
  }

  /** `applyEntryToGlobe`: the claim's slot mesh gets the claim's name, is
      marked waitlisted and is drawn from the claim's avatar source; every
      other mesh and every other field stays. Without a mesh for the slot
      nothing changes. */
  function ApplyEntryToGlobe(meshes: seq<Mesh>, e: AppEntry): (r: seq<Mesh>)
    ensures |r| == |meshes|
    ensures FindMesh(meshes, e.profileId).None? ==> r == meshes
    ensures FindMesh(meshes, e.profileId).Some? ==>
      var k := FindMesh(meshes, e.profileId).value;
      && r[k].userData == meshes[k].userData.(name := e.name, isWaitlisted := true)
      && r[k].appearance == Picture(AvatarSourceOf(e))
      && forall j :: 0 <= j < |meshes| && j != k ==> r[j] == meshes[j]
  {
    match FindMesh(meshes, e.profileId)
    case None => meshes
    case Some(k) =>
      var m := meshes[k];
      meshes[k := Mesh(m.userData.(name := e.name, isWaitlisted := true), Picture(AvatarSourceOf(e)))]
  }

  /** `clearPositionVisually`: the slot's mesh goes back to the slot's
      original record and colour; a slot with no mesh or no record is left
      as it is. */
  function ClearPositionVisually(meshes: seq<Mesh>, profiles: seq<Profile>, id: int): (r: seq<Mesh>)
    ensures |r| == |meshes|
    ensures FindMesh(meshes, id).None? || FindProfile(profiles, id).None? ==> r == meshes
    ensures FindMesh(meshes, id).Some? && FindProfile(profiles, id).Some? ==>
      var k := FindMesh(meshes, id).value;
      && r[k] == InitialMesh(FindProfile(profiles, id).value)
      && forall j :: 0 <= j < |meshes| && j != k ==> r[j] == meshes[j]
  {
    match FindMesh(meshes, id)
    case None => meshes
    case Some(k) =>
      match FindProfile(profiles, id)
      case None => meshes
      case Some(p) => meshes[k := InitialMesh(p)]
  }

  /** Clearing a slot undoes applying a claim to it, when the slot's mesh
      was still fresh. */
  lemma ClearUndoesApply(meshes: seq<Mesh>, profiles: seq<Profile>, e: AppEntry)
    requires FindMesh(meshes, e.profileId).Some? && FindProfile(profiles, e.profileId).Some?
    requires meshes[FindMesh(meshes, e.profileId).value] == InitialMesh(FindProfile(profiles, e.profileId).value)
    ensures ClearPositionVisually(ApplyEntryToGlobe(meshes, e), profiles, e.profileId) == meshes
  {
    var k := FindMesh(meshes, e.profileId).value;
    var applied := ApplyEntryToGlobe(meshes, e);
    assert applied[k].userData.id == e.profileId;
    assert forall j :: 0 <= j < k ==> applied[j] == meshes[j];
    assert FindMesh(applied, e.profileId) == Some(k) by {
      FindMeshFirst(applied, e.profileId, k);
    }
    var cleared := ClearPositionVisually(applied, profiles, e.profileId);
    assert |cleared| == |meshes|;
    forall j | 0 <= j < |meshes| ensures cleared[j] == meshes[j] {
    }
  }

  /** The first mesh with an id is the one `find` returns. */
  lemma {:induction false} FindMeshFirst(meshes: seq<Mesh>, id: int, k: nat)
    requires k < |meshes| && meshes[k].userData.id == id
    requires forall j :: 0 <= j < k ==> meshes[j].userData.id != id
    ensures FindMesh(meshes, id) == Some(k)
  {
    if k > 0 {
      FindMeshFirst(meshes[1..], id, k - 1);
    }
  }
}

=== FILE: globe_utils.dfy ===
/** Sizing and slot-record generation for the globe. `Math.sqrt` and the
    Fibonacci-spiral trigonometry are parameters: `sqrt` is any function on
    reals (the lemmas say what they need of it) and `point(i, count)` is the
    position of the `i`-th of `count` points on the sphere. */
module GlobeUtils {
  import opened Wrappers
  import opened GlobeConstants

  /** `calculateCircleSize`: the device's base size scaled by
      `sqrt(REFERENCE_ENTRIES / totalEntries)`, clamped to the device's
      [min, max]. No entries means division by zero, an infinite scale and
      hence the maximum size. */
  function CalculateCircleSize(totalEntries: real, isMobile: bool, sqrt: real -> real): (r: real)
    requires totalEntries >= 0.0
    ensures SizesFor(isMobile).min <= r <= SizesFor(isMobile).max
    ensures totalEntries == 0.0 ==> r == SizesFor(isMobile).max
  {
    var c := SizesFor(isMobile);
    if totalEntries == 0.0 then c.max
    else Clamp(c.min, c.max, c.base * sqrt(ReferenceEntries / totalEntries))
  }

  ghost predicate MonotoneOnPositives(sqrt: real -> real) {
    forall a: real, b: real :: 0.0 < a <= b ==> sqrt(a) <= sqrt(b)
  }

  /** More entries never mean larger circles, for either device class. */
  lemma CircleSizeNonIncreasing(n1: real, n2: real, isMobile: bool, sqrt: real -> real)
    requires 0.0 <= n1 <= n2
    requires MonotoneOnPositives(sqrt)
    ensures CalculateCircleSize(n2, isMobile, sqrt) <= CalculateCircleSize(n1, isMobile, sqrt)
  {
    if n1 > 0.0 {
      var c := SizesFor(isMobile);
      var q1 := ReferenceEntries / n1;
      var q2 := ReferenceEntries / n2;
      assert 0.0 < q2 <= q1 by {
        assert q2 * n2 == ReferenceEntries == q1 * n1;
        assert 0.0 < q1 && 0.0 < q2;
        assert q1 * (n2 - n1) >= 0.0;
        assert (q1 - q2) * n2 == q1 * (n2 - n1);
      }
      assert sqrt(q2) <= sqrt(q1);
      assert c.base * sqrt(q2) <= c.base * sqrt(q1);
    }
  }

  /** At `REFERENCE_ENTRIES` (250) entries the circles have the base size. */
  lemma CircleSizeAtReference(isMobile: bool, sqrt: real -> real)
    requires sqrt(1.0) == 1.0
    ensures CalculateCircleSize(ReferenceEntries, isMobile, sqrt) == SizesFor(isMobile).base
  {
    assert ReferenceEntries / ReferenceEntries == 1.0;
  }

  datatype Vec = Vec(x: real, y: real, z: real)

  /** One slot record: its id, display name, role, colour and position. */
  datatype Profile = Profile(id: int, name: string, role: string, color: string, position: Vec)

  const WaitlistRole := "Waitlist Spot"

  /** `generateSphericalDistribution(count, RADIUS)`: one position per index,
      in index order. */
  method SphericalDistribution(count: nat, point: (nat, nat) -> Vec) returns (positions: seq<Vec>)
    ensures |positions| == count
    ensures forall i :: 0 <= i < count ==> positions[i] == point(i, count)
  {
    positions := [];
    var i := 0;
    while i < count
      invariant 0 <= i <= count
      invariant |positions| == i
      invariant forall k :: 0 <= k < i ==> positions[k] == point(k, count)
    {
      positions := positions + [point(i, count)];
      i := i + 1;
    }
  }

  /** The slot records for `count` slots: ids `1..count` in order, no name,
      the waitlist role, colours cycling through the palette by id, and the
      `(id - 1)`-th spiral position. */
  predicate IsProfileData(profiles: seq<Profile>, count: nat, point: (nat, nat) -> Vec) {
    && |profiles| == count
    && forall k :: 0 <= k < count ==>
         profiles[k] == Profile(k + 1, "", WaitlistRole, Colors[(k + 1) % |Colors|], point(k, count))
  }

  /** `generateProfileData(count)`. */
  method GenerateProfileData(count: nat, point: (nat, nat) -> Vec) returns (profiles: seq<Profile>)
    ensures IsProfileData(profiles, count, point)
  {
    var positions := SphericalDistribution(count, point);
    profiles := [];
    var id := 1;
    while id <= count
      invariant 1 <= id <= count + 1
      invariant |profiles| == id - 1
      invariant forall k :: 0 <= k < id - 1 ==>
        profiles[k] == Profile(k + 1, "", WaitlistRole, Colors[(k + 1) % |Colors|], point(k, count))
    {
      profiles := profiles + [Profile(id, "", WaitlistRole, Colors[id % |Colors|], positions[id - 1])];
      id := id + 1;
    }
  }

  /** `profiles.find(p => p.id === id)`: the first record with that id. */
  function FindProfile(profiles: seq<Profile>, id: int): (r: Option<Profile>)
    ensures r.Some? ==> r.value in profiles && r.value.id == id
    ensures r.Some? ==> exists k :: 0 <= k < |profiles| && profiles[k] == r.value
                                   && forall j :: 0 <= j < k ==> profiles[j].id != id
    ensures r.None? <==> forall k :: 0 <= k < |profiles| ==> profiles[k].id != id
  {
    if |profiles| == 0 then None
    else if profiles[0].id == id then Some(profiles[0])
    else FindProfile(profiles[1..], id)
  }

  /** In generated slot data, id `id` is found exactly for `1 <= id <= count`,
      at position `id - 1`, with colour `COLORS[id % 6]`. */
  lemma FindGeneratedProfile(profiles: seq<Profile>, count: nat, point: (nat, nat) -> Vec, id: int)
    requires IsProfileData(profiles, count, point)
    ensures FindProfile(profiles, id).Some? <==> 1 <= id <= count
    ensures 1 <= id <= count ==>
      && FindProfile(profiles, id) == Some(profiles[id - 1])
      && profiles[id - 1].color == Colors[id % 6]
  {
    if 1 <= id <= count {
      assert profiles[id - 1].id == id;
      FindFirst(profiles, id, id - 1);
    }
  }

  /** When ids are strictly increasing, the record with a given id is the
      one `find` returns. */
  lemma {:induction false} FindFirst(profiles: seq<Profile>, id: int, k: nat)
    requires k < |profiles| && profiles[k].id == id
    requires forall j :: 0 <= j < |profiles| ==> profiles[j].id == j + profiles[0].id
    ensures FindProfile(profiles, id) == Some(profiles[k])
  {
    if k > 0 {
      assert profiles[0].id != id;
      var rest := profiles[1..];
      assert forall j :: 0 <= j < |rest| ==> rest[j].id == j + rest[0].id by {
        assert forall j :: 0 <= j < |rest| ==> rest[j] == profiles[j + 1];
      }
      FindFirst(rest, id, k - 1);
    }
  }
}

=== FILE: keyed.dfy ===
/** Building a JavaScript `Map` from an array with `new Map(xs.map(x => [key(x), x]))`
    or a `forEach(x => m.set(key(x), x))`: later elements overwrite earlier
    ones with the same key. */
module Keyed {

  /** `s[i]` is the last element of `s` with its key. */
  ghost predicate IsLastWithKey<K, V>(s: seq<V>, key: V -> K, i: int) {
    0 <= i < |s| && forall j :: i < j < |s| ==> key(s[j]) != key(s[i])
  }

  function KeyBy<K(==), V>(s: seq<V>, key: V -> K): map<K, V> {
    if |s| == 0 then map[] else KeyBy(s[..|s| - 1], key)[key(s[|s| - 1]) := s[|s| - 1]]
  }

  /** Every element's key is present, every present key comes from an element
      carrying it, and the value at a key is the last element with that key. */
  lemma {:induction false} KeyByContents<K, V>(s: seq<V>, key: V -> K)
    ensures forall i :: 0 <= i < |s| ==> key(s[i]) in KeyBy(s, key)
    ensures forall k :: k in KeyBy(s, key) ==> key(KeyBy(s, key)[k]) == k && KeyBy(s, key)[k] in s
    ensures forall i :: IsLastWithKey(s, key, i) ==> KeyBy(s, key)[key(s[i])] == s[i]
  {
    if |s| > 0 {
      var init := s[..|s| - 1];
      var last := s[|s| - 1];
      var m := KeyBy(s, key);
      KeyByContents(init, key);
      assert m == KeyBy(init, key)[key(last) := last];
      forall i | 0 <= i < |s| ensures key(s[i]) in m {
        if i < |s| - 1 {
          assert s[i] == init[i];
        }
      }
      forall k | k in m ensures key(m[k]) == k && m[k] in s {
        if k != key(last) {
          assert m[k] == KeyBy(init, key)[k];
        }
      }
      forall i | IsLastWithKey(s, key, i) ensures m[key(s[i])] == s[i] {
        if i < |s| - 1 {
          assert s[i] == init[i];
          assert IsLastWithKey(init, key, i) by {
            forall j | i < j < |init| ensures key(init[j]) != key(init[i]) {
              assert init[j] == s[j];
            }
          }
          assert key(s[i]) != key(last);
        }
      }
    }
  }
}

=== FILE: policies.dfy ===
/** Properties that span the client and the server: how the route's
    refusals are shown by the join form, where the client-side registry and
    the route disagree, and what a claim made through the form looks like
    once it is drawn on the globe. */
module Policies {
  import opened Wrappers
  import opened Text
  import opened Table
  import opened WaitlistService
  import ClaimRoute
  import WaitlistPopup
  import GlobeCanvas
  import GlobeHook

  /** `t` cannot occur in `s` when `s` starts with `t`'s first character,
      never repeats it, and continues differently from `t`. */
  lemma NotContainedAfterLead(s: string, rest: string, t: string)
    requires |t| >= 2 && |rest| >= 1
    requires s == [t[0]] + rest && t[0] !in rest && rest[0] != t[1]
    ensures !Contains(s, t)
  {
    forall i | 0 <= i <= |s| - |t| ensures !OccursAt(s, t, i) {
      if i == 0 {
        assert s[i..i + |t|][1] == rest[0];
      } else {
        assert s[i..i + |t|][0] == rest[i - 1];
      }
    }
  }

  /** `t` cannot occur in `s` when one of its characters is absent from `s`. */
  lemma NotContainedMissingChar(s: string, t: string, k: nat)
    requires k < |t| && t[k] !in s
    ensures !Contains(s, t)
  {
    forall i | 0 <= i <= |s| - |t| ensures !OccursAt(s, t, i) {
      assert s[i..i + |t|][k] == s[i + k];
    }
  }

  /** `t` occurs in any string built around it. */
  lemma ContainedBetween(a: string, t: string, b: string)
    ensures Contains(a + t + b, t)
  {
    assert (a + t + b)[|a|..|a| + |t|] == t;
    assert OccursAt(a + t + b, t, |a|);
  }

  /** What occurs in a string occurs in any extension of it. */
  lemma ContainedInPrefix(s: string, t: string, x: string)
    requires Contains(s, t)
    ensures Contains(s + x, t)
  {
    var i :| 0 <= i <= |s| - |t| && OccursAt(s, t, i);
    assert (s + x)[i..i + |t|] == s[i..i + |t|];
    assert OccursAt(s + x, t, i);
  }

  /** The opening the route's two "already joined" answers share says
      "already joined". */
  lemma OpeningSaysAlreadyJoined()
    ensures Contains(ClaimRoute.AlreadyJoinedOpening, "already joined")
  {
    var tail := " the waitlist with this Twitter account";
    assert "You have already joined" == "You have " + "already joined";
    assert ClaimRoute.AlreadyJoinedOpening == "You have " + "already joined" + tail;
    ContainedBetween("You have ", "already joined", tail);
  }

  /** Both "already joined" answers of the route, including the one about a
      different wallet, become the form's fixed "already joined" text on the
      name field. */
  lemma AlreadyJoinedRefusalsOnNameField()
    ensures WaitlistPopup.RouteError(ClaimRoute.SameWalletOtherSlotMessage)
      == WaitlistPopup.FormErrors(Some(WaitlistPopup.AlreadyJoinedMessage), None)
    ensures WaitlistPopup.RouteError(ClaimRoute.OtherWalletMessage)
      == WaitlistPopup.FormErrors(Some(WaitlistPopup.AlreadyJoinedMessage), None)
  {
    var opening := ClaimRoute.AlreadyJoinedOpening;
    var other := " using a different wallet address.";
    OpeningSaysAlreadyJoined();
    ContainedInPrefix(opening, "already joined", " and wallet address");
    ContainedInPrefix(opening, "already joined", other);
    ContainedInPrefix(opening + other, "already joined",
      " Each Twitter account can only be linked to one wallet address.");
  }

  /** The route's wallet-in-use answer becomes the form's fixed wallet-field
      text. */
  lemma WalletUsedRefusalOnWalletField()
    ensures WaitlistPopup.RouteError(ClaimRoute.WalletUsedMessage)
      == WaitlistPopup.FormErrors(None, Some(WaitlistPopup.WalletUsedMessage))
  {
    WalletUsedLacksAlreadyJoined();
    WalletUsedLacksTwitterAccount();
    WalletUsedNamesWalletAddress();
  }

  lemma WalletUsedLacksAlreadyJoined()
    ensures !Contains(ClaimRoute.WalletUsedMessage, "already joined")
  {
    NotContainedMissingChar(ClaimRoute.WalletUsedMessage, "already joined", 8);
  }

  /** The only capital `T` of the wallet-in-use answer is its first letter,
      which is followed by `h`, not `w`. */
  lemma WalletUsedLacksTwitterAccount()
    ensures !Contains(ClaimRoute.WalletUsedMessage, "Twitter account")
  {
    var rest := "his wallet address" + " has already been used" + " by another account";
    WalletUsedSplitsAtLead();
    CapitalTOnlyLeads();
    NotContainedAfterLead(ClaimRoute.WalletUsedMessage, rest, "Twitter account");
  }

  lemma WalletUsedSplitsAtLead()
    ensures var rest := "his wallet address" + " has already been used" + " by another account";
      ClaimRoute.WalletUsedMessage == ['T'] + rest && rest[0] == 'h'
  {
    assert "This wallet address" == ['T'] + "his wallet address";
  }

  lemma CapitalTOnlyLeads()
    ensures 'T' !in "his wallet address" + " has already been used" + " by another account"
  {
    assert 'T' !in "his wallet address";
    assert 'T' !in " has already been used";
    assert 'T' !in " by another account";
  }

  lemma WalletUsedNamesWalletAddress()
    ensures Contains(ClaimRoute.WalletUsedMessage, "wallet address")
  {
    var tail := " has already been used" + " by another account";
    assert "This wallet address" == "This " + "wallet address";
    assert ClaimRoute.WalletUsedMessage == "This " + "wallet address" + tail;
    ContainedBetween("This ", "wallet address", tail);
  }

  /** The route's taken-slot answer is shown verbatim on the name field. */
  lemma PositionTakenRefusalVerbatim()
    ensures WaitlistPopup.RouteError(ClaimRoute.PositionTakenMessage)
      == WaitlistPopup.FormErrors(Some(ClaimRoute.PositionTakenMessage), None)
  {
    TakenMessageLacks("already joined", 8);
    TakenMessageLacks("Twitter account", 1);
    TakenMessageLacks("wallet address", 0);
    TakenMessageLacks("already been used", 8);
  }

  lemma TakenMessageLacks(t: string, k: nat)
    requires k < |t| && t[k] in "jwb"
    ensures !Contains(ClaimRoute.PositionTakenMessage, t)
  {
    NotContainedMissingChar(ClaimRoute.PositionTakenMessage, t, k);
  }

  /** A wallet asking for a second, free slot: the client-side registry
      moves its claim there, while the route refuses because the account
      already holds a claim. */
  lemma RegistryMovesWhereRouteRefuses()
    ensures var held := Row("r1", "Ada", "walletA", "a.png", Upload, None, None, 1, Some("ada@x"), 0);
      var entry := NewEntry("Ada", "walletA", "a.png", Upload, None, None, 2);
      var body := ClaimRoute.ClaimBody("Ada", "walletA", "a.png", Upload, None, None, 2);
      var local := FallbackToLocalStorage(LoadStore(Some([DbToApp(held)])), entry, Fresh("l", 7, "r2", 7));
      var remote := ClaimRoute.Post(Some(ClaimRoute.SessionUser(Some("ada@x"))), Some(body), [held],
                                    ClaimRoute.NoFaults, ClaimRoute.Ids("r2", 7));
      && local.result.Success? && local.result.value.profileId == 2
      && remote.response == ClaimRoute.Response(400, ClaimRoute.Error(ClaimRoute.SameWalletOtherSlotMessage))
      && remote.rows == [held]
  {
    var held := Row("r1", "Ada", "walletA", "a.png", Upload, None, None, 1, Some("ada@x"), 0);
    var store := LoadStore(Some([DbToApp(held)]));
    LoadStoreContents([DbToApp(held)]);
    assert store.Keys == {"walletA"};
    assert Filter([held], ByUser("ada@x")) == [held];
  }

  /** The form's default style is kept as it is by the globe. */
  lemma DefaultStyleIsKept()
    ensures GlobeHook.StyleOf(Some(WaitlistPopup.DefaultStyle)) == GlobeHook.DefaultStyle
  {
    var d := WaitlistPopup.DefaultStyle;
    assert d[0] == 'a' && d[|d| - 1] == 'r';
    assert !IsBlank(d) by {
      assert !IsSpace(d[0]);
    }
    TrimOfTrimmed(d);
  }

  /** A stored row with a seeded avatar in the default style is drawn as
      that generated avatar. */
  lemma SeededRowDraws(row: Row, seed: string)
    requires row.avatarType == AvatarSeed && row.avatarSeed == Some(seed) && seed != ""
    requires row.avatarStyle == Some(WaitlistPopup.DefaultStyle)
    ensures GlobeHook.AvatarSourceOf(DbToApp(row)) == GlobeHook.Generated(GlobeHook.DefaultStyle, seed)
  {
    DefaultStyleIsKept();
  }

  /** A claim made through the form without an account image, once the
      route accepts it and the page applies the returned row, is drawn as a
      generated avatar in the default style whose seed reads back as the
      claimed slot. */
  lemma FormClaimDrawsSlotAvatar(form: WaitlistPopup.Form, user: ClaimRoute.SessionUser, rows: seq<Row>,
                                 faults: ClaimRoute.Faults, ids: ClaimRoute.Ids, st: GlobeCanvas.CanvasState)
    requires WaitlistPopup.ValidateForm(form).0
    requires !WaitlistPopup.Truthy(form.uploadedImage)
    requires form.profileId.Some? && form.profileId.value > 0
    requires st.selected == form.profileId
    requires ClaimRoute.Post(Some(user), Some(GlobeCanvas.RequestBody(WaitlistPopup.BuildEntry(form), form.profileId.value)),
                             rows, faults, ids).response.reply.Created?
    ensures var body := GlobeCanvas.RequestBody(WaitlistPopup.BuildEntry(form), form.profileId.value);
      var row := ClaimRoute.Post(Some(user), Some(body), rows, faults, ids).response.reply.row;
      var shown := GlobeCanvas.HandleWaitlistSubmit(st, GlobeCanvas.Accepted(row));
      && shown.applied.Some?
      && shown.applied.value.profileId == form.profileId.value
      && GlobeHook.AvatarSourceOf(shown.applied.value).Generated?
      && GlobeHook.AvatarSourceOf(shown.applied.value).style == GlobeHook.DefaultStyle
      && ParseInt(GlobeHook.AvatarSourceOf(shown.applied.value).seed) == form.profileId
  {
    var entry := WaitlistPopup.BuildEntry(form);
    var body := GlobeCanvas.RequestBody(entry, form.profileId.value);
    var row := ClaimRoute.Post(Some(user), Some(body), rows, faults, ids).response.reply.row;
    assert entry.avatar != "" by {
      assert ParseInt(entry.avatar).Some?;
    }
    assert row.avatarSeed == Some(entry.avatar);
    SeededRowDraws(row, entry.avatar);
    var shown := GlobeCanvas.HandleWaitlistSubmit(st, GlobeCanvas.Accepted(row));
    assert shown.applied == Some(DbToApp(row));
  }
}

=== FILE: table.dfy ===
/** The hosted `waitlist_entries` table, abstracted as a sequence of rows,
    and the point lookups the application performs on it. */
module Table {
  import opened Wrappers

  datatype AvatarType = Upload | AvatarSeed

  /** One row; `createdAt` is the time value (milliseconds) of the stored
      `created_at` timestamp and `userId` is absent for rows written by the
      client-side registry, which never sets `user_id`. */
  datatype Row = Row(
    id: string,
    name: string,
    walletAddress: string,
    avatar: string,
    avatarType: AvatarType,
    avatarSeed: Option<string>,
    avatarStyle: Option<string>,
    profileId: int,
    userId: Option<string>,
    createdAt: int)

  /** The rows a query's `.eq(...)` filters select, in table order. */
  function Filter(rows: seq<Row>, p: Row -> bool): (r: seq<Row>)
    ensures forall x :: x in r <==> x in rows && p(x)
    ensures |r| <= |rows|
  {
    if |rows| == 0 then []
    else if p(rows[0]) then [rows[0]] + Filter(rows[1..], p)
    else Filter(rows[1..], p)
  }

  /** The `data` of `.single()` and `.maybeSingle()`: the row when exactly one
      row matches, otherwise nothing (the zero- and many-row error is
      discarded by every caller). */
  function Lookup(rows: seq<Row>, p: Row -> bool): (r: Option<Row>)
    ensures r.Some? ==> r.value in rows && p(r.value)
    ensures r.Some? ==> forall x :: x in rows && p(x) ==> x == r.value
  {
    var f := Filter(rows, p);
    if |f| == 1 then Some(f[0]) else None
  }

  /** At most one row satisfies `p`. */
  predicate AtMostOne(rows: seq<Row>, p: Row -> bool) {
    forall i, j :: 0 <= i < |rows| && 0 <= j < |rows| && p(rows[i]) && p(rows[j]) ==> i == j
  }

  lemma {:induction false} FilterAtMostOne(rows: seq<Row>, p: Row -> bool)
    requires AtMostOne(rows, p)
    ensures |Filter(rows, p)| <= 1
  {
    if |rows| > 0 {
      assert AtMostOne(rows[1..], p) by {
        forall i, j | 0 <= i < |rows| - 1 && 0 <= j < |rows| - 1 && p(rows[1..][i]) && p(rows[1..][j])
          ensures i == j
        {
          assert rows[1..][i] == rows[i + 1] && rows[1..][j] == rows[j + 1];
        }
      }
      FilterAtMostOne(rows[1..], p);
      if p(rows[0]) {
        forall x | x in rows[1..] ensures !p(x) {
          var k :| 0 <= k < |rows| - 1 && rows[1..][k] == x;
          assert rows[k + 1] == x;
        }
        FilterNone(rows[1..], p);
      }
    }
  }

  lemma {:induction false} FilterNone(rows: seq<Row>, p: Row -> bool)
    requires forall x :: x in rows ==> !p(x)
    ensures Filter(rows, p) == []
  {
    if |rows| > 0 {
      assert rows[0] in rows;
      FilterNone(rows[1..], p);
    }
  }

  /** When the filter can match at most one row (a unique column), the lookup
      finds a row exactly when one exists. */
  lemma LookupUnique(rows: seq<Row>, p: Row -> bool)
    requires AtMostOne(rows, p)
    ensures Lookup(rows, p).Some? <==> exists x :: x in rows && p(x)
  {
    FilterAtMostOne(rows, p);
    if x :| x in rows && p(x) {
      assert x in Filter(rows, p);
    }
  }

  function ByWallet(w: string): Row -> bool {
    (r: Row) => r.walletAddress == w
  }

  function BySlot(profileId: int): Row -> bool {
    (r: Row) => r.profileId == profileId
  }

  function ByUser(userId: string): Row -> bool {
    (r: Row) => r.userId == Some(userId)
  }

  /** The uniqueness the table is meant to keep: one row per user, per wallet
      and per slot. */
  predicate UniqueKeys(rows: seq<Row>) {
    forall i, j :: 0 <= i < j < |rows| ==>
      && rows[i].walletAddress != rows[j].walletAddress
      && rows[i].profileId != rows[j].profileId
      && (rows[i].userId.Some? ==> rows[i].userId != rows[j].userId)
  }

  lemma UniqueKeysLookups(rows: seq<Row>, w: string, profileId: int, userId: string)
    requires UniqueKeys(rows)
    ensures AtMostOne(rows, ByWallet(w))
    ensures AtMostOne(rows, BySlot(profileId))
    ensures AtMostOne(rows, ByUser(userId))
  {
    forall i, j | 0 <= i < |rows| && 0 <= j < |rows| && i != j
      ensures !(ByWallet(w)(rows[i]) && ByWallet(w)(rows[j]))
      ensures !(BySlot(profileId)(rows[i]) && BySlot(profileId)(rows[j]))
      ensures !(ByUser(userId)(rows[i]) && ByUser(userId)(rows[j]))
    {
      if i < j {
        assert rows[i].userId.Some? ==> rows[i].userId != rows[j].userId;
      } else {
        assert rows[j].userId.Some? ==> rows[j].userId != rows[i].userId;
      }
    }
  }
}

=== FILE: text.dfy ===
/** The JavaScript string primitives the application relies on, over
    `string` = `seq<char>`: `trim`, `startsWith`, `includes`, `indexOf`,
    `length` (in UTF-16 code units), `String(n)` for integers and
    `parseInt(s, 10)`. */
module Text {
  import opened Wrappers

  /** JavaScript's `trim` whitespace: the WhiteSpace and LineTerminator code
      points of section 12.2 and 12.3 of ECMA-262. */
  predicate IsSpace(c: char) {
    var n := c as int;
    || n == 0x09 || n == 0x0A || n == 0x0B || n == 0x0C || n == 0x0D
    || n == 0x20 || n == 0xA0 || n == 0x1680
    || (0x2000 <= n <= 0x200A)
    || n == 0x2028 || n == 0x2029 || n == 0x202F || n == 0x205F
    || n == 0x3000 || n == 0xFEFF
  }

  /** A code point outside the Basic Multilingual Plane, which UTF-16 stores
      as a surrogate pair. */
  predicate IsAstral(c: char) {
    c as int >= 0x10000
  }

  /** JavaScript's `length`: the number of UTF-16 code units, one per code
      point of the Basic Multilingual Plane and two per astral code point. */
  function Utf16Length(s: string): (n: nat)
    ensures |s| <= n <= 2 * |s|
    ensures n == |s| <==> forall i :: 0 <= i < |s| ==> !IsAstral(s[i])
    ensures n == 2 * |s| <==> forall i :: 0 <= i < |s| ==> IsAstral(s[i])
  {
    if s == [] then 0
    else
      var rest := Utf16Length(s[1..]);
      assert forall i :: 1 <= i < |s| ==> s[i] == s[1..][i - 1];
      (if IsAstral(s[0]) then 2 else 1) + rest
  }

  /** Empty or whitespace only. */
  predicate IsBlank(s: string) {
    forall i :: 0 <= i < |s| ==> IsSpace(s[i])
  }

  /** No leading and no trailing whitespace. */
  predicate IsTrimmed(s: string) {
    s == [] || (!IsSpace(s[0]) && !IsSpace(s[|s| - 1]))
  }

  /** Drops leading whitespace: the result is a suffix of `s` and everything
      dropped is whitespace. */
  function TrimStart(s: string): (r: string)
    ensures |r| <= |s| && r == s[|s| - |r|..]
    ensures IsBlank(s[..|s| - |r|])
    ensures r == [] || !IsSpace(r[0])
  {
    if |s| > 0 && IsSpace(s[0]) then
      var r := TrimStart(s[1..]);
      DropOneMore(s, r);
      r
    else
      s
  }

  /** Drops trailing whitespace: the result is a prefix of `s` and everything
      dropped is whitespace. */
  function TrimEnd(s: string): (r: string)
    ensures |r| <= |s| && r == s[..|r|]
    ensures IsBlank(s[|r|..])
    ensures r == [] || !IsSpace(r[|r| - 1])
  {
    if |s| > 0 && IsSpace(s[|s| - 1]) then
      var r := TrimEnd(s[..|s| - 1]);
      DropOneMoreAtEnd(s, r);
      r
    else
      s
  }

  /** JavaScript's `String.prototype.trim`. */
  function Trim(s: string): (r: string)
    ensures IsTrimmed(r)
    ensures r == [] <==> IsBlank(s)
    ensures |r| <= |s|
  {
    TrimShape(s);
    TrimEnd(TrimStart(s))
  }

  lemma BlankConcat(a: string, b: string)
    requires IsBlank(a) && IsBlank(b)
    ensures IsBlank(a + b)
  {
    forall i | 0 <= i < |a + b| ensures IsSpace((a + b)[i]) {
      if i >= |a| {
        assert (a + b)[i] == b[i - |a|];
      }
    }
  }

  /** One more leading whitespace character in front of a trimmed suffix. */
  lemma DropOneMore(s: string, r: string)
    requires |s| > 0 && IsSpace(s[0])
    requires |r| <= |s| - 1 && r == s[1..][|s| - 1 - |r|..]
    requires IsBlank(s[1..][..|s| - 1 - |r|])
    ensures r == s[|s| - |r|..] && IsBlank(s[..|s| - |r|])
  {
    assert s[..|s| - |r|] == [s[0]] + s[1..][..|s| - 1 - |r|];
    BlankConcat([s[0]], s[1..][..|s| - 1 - |r|]);
  }

  /** One more trailing whitespace character behind a trimmed prefix. */
  lemma DropOneMoreAtEnd(s: string, r: string)
    requires |s| > 0 && IsSpace(s[|s| - 1])
    requires |r| <= |s| - 1 && r == s[..|s| - 1][..|r|]
    requires IsBlank(s[..|s| - 1][|r|..])
    ensures r == s[..|r|] && IsBlank(s[|r|..])
  {
    assert s[|r|..] == s[..|s| - 1][|r|..] + [s[|s| - 1]];
    BlankConcat(s[..|s| - 1][|r|..], [s[|s| - 1]]);
  }

  lemma TrimShape(s: string)
    ensures var r := TrimEnd(TrimStart(s));
      && IsTrimmed(r)
      && (r == [] <==> IsBlank(s))
      && |r| <= |s|
  {
    var t := TrimStart(s);
    var r := TrimEnd(t);
    if r == [] {
      BlankWhenNothingKept(s, t);
    } else {
      TrimmedWhenSomethingKept(s, t, r);
    }
  }

  /** A blank suffix behind a blank prefix: the whole string is blank. */
  lemma BlankWhenNothingKept(s: string, t: string)
    requires |t| <= |s| && t == s[|s| - |t|..] && IsBlank(s[..|s| - |t|])
    requires IsBlank(t[0..])
    ensures IsBlank(s)
  {
    assert t == t[0..];
    assert s == s[..|s| - |t|] + t;
    BlankConcat(s[..|s| - |t|], t);
  }

  /** A non-empty prefix `r` of the suffix `t` of `s`, where `t` starts and
      `r` ends with non-whitespace: `r` is trimmed and `s` is not blank. */
  lemma TrimmedWhenSomethingKept(s: string, t: string, r: string)
    requires |t| <= |s| && t == s[|s| - |t|..] && (t == [] || !IsSpace(t[0]))
    requires |r| <= |t| && r == t[..|r|] && r != [] && !IsSpace(r[|r| - 1])
    ensures IsTrimmed(r) && !IsBlank(s)
  {
    assert r[0] == t[0];
    assert s[|s| - |t|] == t[0];
  }

  lemma {:induction false} TrimOfTrimmed(s: string)
    requires IsTrimmed(s)
    ensures Trim(s) == s
  {
    assert TrimStart(s) == s;
    assert TrimEnd(s) == s;
  }

  /** Trimming twice is trimming once. */
  lemma TrimIdempotent(s: string)
    ensures Trim(Trim(s)) == Trim(s)
  {
    TrimOfTrimmed(Trim(s));
  }

  /** JavaScript's `startsWith`. */
  predicate StartsWith(s: string, prefix: string) {
    |prefix| <= |s| && s[..|prefix|] == prefix
  }

  /** JavaScript's `includes` on strings. */
  predicate Contains(s: string, t: string) {
    exists i | 0 <= i <= |s| - |t| :: OccursAt(s, t, i)
  }

  /** `t` occurs in `s` starting at index `i`. */
  predicate OccursAt(s: string, t: string, i: int) {
    0 <= i <= |s| - |t| && s[i..i + |t|] == t
  }

  /** JavaScript's `indexOf` for a single character; `None` stands for -1. */
  function IndexOf(s: string, c: char): (r: Option<nat>)
    ensures r.Some? ==> r.value < |s| && s[r.value] == c
    ensures r.Some? ==> forall j :: 0 <= j < r.value ==> s[j] != c
    ensures r.None? <==> c !in s
  {
    if |s| == 0 then None
    else if s[0] == c then Some(0)
    else
      match IndexOf(s[1..], c)
      case None => None
      case Some(k) => Some(k + 1)
  }

  // ---------------------------------------------------------------------
  // Decimal integers: `String(n)` and `parseInt(s, 10)`

  predicate IsDigit(c: char) {
    '0' <= c <= '9'
  }

  function DigitChar(d: nat): (c: char)
    requires d < 10
    ensures IsDigit(c)
  {
    ['0', '1', '2', '3', '4', '5', '6', '7', '8', '9'][d]
  }

  function DigitValue(c: char): nat
    requires IsDigit(c)
  {
    (c as int - '0' as int) as nat
  }

  /** The number a string of decimal digits denotes. */
  function DecimalValue(ds: string): nat
    requires forall i :: 0 <= i < |ds| ==> IsDigit(ds[i])
  {
    if |ds| == 0 then 0
    else DecimalValue(ds[..|ds| - 1]) * 10 + DigitValue(ds[|ds| - 1])
  }

  /** Shortest decimal spelling of a natural number (`String(n)`). */
  function NatToDecimal(n: nat): (s: string)
    ensures |s| > 0
    ensures forall i :: 0 <= i < |s| ==> IsDigit(s[i])
  {
    if n < 10 then [DigitChar(n)] else NatToDecimal(n / 10) + [DigitChar(n % 10)]
  }

  /** `String(i)` for an integer. */
  function IntToString(i: int): string {
    if i < 0 then "-" + NatToDecimal(-i) else NatToDecimal(i)
  }

  /** The longest prefix of `s` made of decimal digits. */
  function LeadingDigits(s: string): (r: string)
    ensures |r| <= |s| && r == s[..|r|]
    ensures forall i :: 0 <= i < |r| ==> IsDigit(s[i])
    ensures |r| < |s| ==> !IsDigit(s[|r|])
  {
    if |s| > 0 && IsDigit(s[0]) then [s[0]] + LeadingDigits(s[1..]) else []
  }

  /** JavaScript's `parseInt(s, 10)`: leading whitespace is skipped, one
      optional sign is read, then as many decimal digits as follow; `None`
      stands for `NaN` (no digit at all). */
  function ParseInt(s: string): Option<int> {
    var t := TrimStart(s);
    var negative := |t| > 0 && t[0] == '-';
    var unsigned := if |t| > 0 && (t[0] == '-' || t[0] == '+') then t[1..] else t;
    var ds := LeadingDigits(unsigned);
    if |ds| == 0 then None
    else
      var magnitude: int := DecimalValue(ds);
      Some(if negative then -magnitude else magnitude)
  }
}

=== FILE: waitlist_popup.dfy ===
/** The join form: when it may be submitted, which field errors it shows,
    the entry it sends, and how a failure is reported on its fields. The
    answers of the server checks it makes before sending (the caller's own
    claim, whether the wallet is used) and the outcome of sending are
    inputs. */
module WaitlistPopup {
  import opened Wrappers
  import opened Text
  import opened Decimal
  import opened Table
  import opened AddressValidation

  const NameRequiredMessage := "Name is required"
  const SignInMessage := "Please sign in with X to continue"
  const AlreadyJoinedMessage := "You have already joined the waitlist with this Twitter account"
  const OtherWalletMessage :=
    "You have already joined with a different wallet address. Each Twitter account can only be linked to one wallet address."
  const WalletUsedMessage := "This wallet address has already been used"
  const DefaultStyle := "adventurer"
  const PreviewFallbackSeed := "axios"

  /** The form's inputs: name, wallet, the profile image taken from the
      signed-in account (if any) and the selected slot. */
  datatype Form = Form(name: string, walletAddress: string, uploadedImage: Option<string>, profileId: Option<int>)

  /** Error texts shown under the name and the wallet fields. */
  datatype FormErrors = FormErrors(name: Option<string>, wallet: Option<string>)

  const NoErrors := FormErrors(None, None)

  /** The entry handed to the submit callback (`WaitlistFormData`). */
  datatype EntryData = EntryData(
    name: string,
    walletAddress: string,
    avatar: string,
    avatarType: AvatarType,
    avatarSeed: Option<string>,
    avatarStyle: Option<string>)

  /** JavaScript truthiness of an optional string. */
  predicate Truthy(s: Option<string>) {
    s.Some? && s.value != ""
  }

  /** `canSubmit`: the submit button is enabled. */
  predicate CanSubmit(form: Form, isAuthenticated: bool) {
    |Trim(form.name)| > 0 && ValidateWalletAddress(form.walletAddress).isValid && isAuthenticated
  }

  /** `validateForm`: a name error exactly for a blank name, a wallet error
      (the validator's message) exactly for an invalid address; the form is
      valid exactly when no error is set. */
  function ValidateForm(form: Form): (r: (bool, FormErrors))
    ensures r.1.name.Some? <==> IsBlank(form.name)
    ensures r.1.name.Some? ==> r.1.name.value == NameRequiredMessage
    ensures r.1.wallet.Some? <==> !ValidateWalletAddress(form.walletAddress).isValid
    ensures r.1.wallet.Some? ==> r.1.wallet == ValidateWalletAddress(form.walletAddress).error
    ensures r.0 <==> r.1 == NoErrors
  {
    var nameError := if Trim(form.name) == "" then Some(NameRequiredMessage) else None;
    var walletError :=
      if !ValidateWalletAddress(form.walletAddress).isValid then GetAddressErrorMessage(form.walletAddress)
      else None;
    var errors := FormErrors(nameError, walletError);
    (errors == NoErrors, errors)
  }

  /** The button is enabled exactly when the form would validate and the
      user is signed in. */
  lemma CanSubmitIffValid(form: Form, isAuthenticated: bool)
    ensures CanSubmit(form, isAuthenticated) <==> ValidateForm(form).0 && isAuthenticated
  {
    assert |Trim(form.name)| > 0 <==> Trim(form.name) != "";
  }

  /** The generated-avatar seed: the slot number when one is selected,
      else the normalized wallet. */
  function SeedFor(form: Form): (r: string)
    ensures form.profileId.GetOr(0) > 0 ==> r != "" && ParseInt(r) == Some(form.profileId.value)
    ensures form.profileId.GetOr(0) <= 0 ==> r == Trim(form.walletAddress)
  {
    if form.profileId.GetOr(0) > 0 then
      IntToStringShape(form.profileId.value);
      ParseIntOfIntToString(form.profileId.value);
      IntToString(form.profileId.value)
    else ValidateWalletAddress(form.walletAddress).normalizedAddress
  }

  /** The entry the form sends: trimmed name and normalized wallet; the
      account image as an upload when there is one, otherwise a generated
      avatar whose avatar text and seed are the same seed. */
  function BuildEntry(form: Form): (r: EntryData)
    ensures r.name == Trim(form.name)
    ensures r.walletAddress == Trim(form.walletAddress)
    ensures Truthy(form.uploadedImage) ==>
      r == EntryData(r.name, r.walletAddress, form.uploadedImage.value, Upload, None, None)
    ensures !Truthy(form.uploadedImage) ==>
      && r.avatarType == AvatarSeed
      && r.avatarSeed == Some(r.avatar)
      && r.avatarStyle == Some(DefaultStyle)
    ensures !Truthy(form.uploadedImage) && form.profileId.Some? && form.profileId.value > 0 ==>
      ParseInt(r.avatar) == Some(form.profileId.value)
    ensures !Truthy(form.uploadedImage) && form.profileId.GetOr(0) <= 0 ==>
      r.avatar == Trim(form.walletAddress)
  {
    var wallet := ValidateWalletAddress(form.walletAddress).normalizedAddress;
    if Truthy(form.uploadedImage) then
      EntryData(Trim(form.name), wallet, form.uploadedImage.value, Upload, None, None)
    else
      var seed := SeedFor(form);
      EntryData(Trim(form.name), wallet, seed, AvatarSeed, Some(seed), Some(DefaultStyle))
  }

  /** The seed of the avatar preview: like the submitted seed, but an empty
      wallet falls back to a fixed seed. */
  function PreviewSeed(form: Form): (r: string)
    ensures r != ""
    ensures form.profileId.GetOr(0) <= 0 && IsBlank(form.walletAddress) ==> r == PreviewFallbackSeed
  {
    var seed := SeedFor(form);
    if seed != "" then seed else PreviewFallbackSeed
  }

  /** The preview shows the avatar that is sent, whenever the sent seed is
      not empty. */
  lemma PreviewMatchesSentAvatar(form: Form)
    requires !Truthy(form.uploadedImage)
    requires BuildEntry(form).avatar != ""
    ensures PreviewSeed(form) == BuildEntry(form).avatar
  {
  }

  /** Where a failed submission's message is shown: identity complaints on
      the name field, wallet complaints on the wallet field (both as fixed
      texts), anything else verbatim on the name field. */
  function RouteError(message: string): (r: FormErrors)
    ensures r.name.Some? != r.wallet.Some?
    ensures r.wallet.Some? ==> r.wallet.value == WalletUsedMessage
    ensures r.name.Some? ==> r.name.value == AlreadyJoinedMessage || r.name.value == message
    ensures Contains(message, "already joined") || Contains(message, "Twitter account") ==>
      r.name == Some(AlreadyJoinedMessage)
    ensures r.wallet.Some? ==> Contains(message, "wallet address") || Contains(message, "already been used")
    ensures !(Contains(message, "already joined") || Contains(message, "Twitter account"))
            && (Contains(message, "wallet address") || Contains(message, "already been used")) ==>
      r == FormErrors(None, Some(WalletUsedMessage))
    ensures !(Contains(message, "already joined") || Contains(message, "Twitter account"))
            && !(Contains(message, "wallet address") || Contains(message, "already been used")) ==>
      r == FormErrors(Some(message), None)
    ensures r.name != Some(message) && r.name.Some? ==>
      Contains(message, "already joined") || Contains(message, "Twitter account")
  {
    if Contains(message, "already joined") || Contains(message, "Twitter account") then
      FormErrors(Some(AlreadyJoinedMessage), None)
    else if Contains(message, "wallet address") || Contains(message, "already been used") then
      FormErrors(None, Some(WalletUsedMessage))
    else
      FormErrors(Some(message), None)
  }

  /** How `handleSubmit` ended: the errors shown, the entry handed to the
      submit callback (if it got that far), and whether the form was reset. */
  datatype SubmitOutcome = SubmitOutcome(errors: FormErrors, sent: Option<EntryData>, reset: bool)

  /** `handleSubmit`. `claimedWallet` is the wallet of the caller's existing
      claim as the server reports it (`None`: no claim, or the check failed);
      `walletInUse` is the wallet check's answer (a failed check reads as
      unused); `submitError` is the message the submit callback threw, if it
      threw. */
  function HandleSubmit(form: Form, isAuthenticated: bool, claimedWallet: Option<string>,
                        walletInUse: bool, submitError: Option<string>): (r: SubmitOutcome)
    ensures r.sent.Some? ==>
      && ValidateForm(form).0 && isAuthenticated && claimedWallet.None? && !walletInUse
      && r.sent.value == BuildEntry(form)
    ensures !ValidateForm(form).0 ==> r == SubmitOutcome(ValidateForm(form).1, None, false)
    ensures ValidateForm(form).0 && !isAuthenticated ==>
      r.errors == FormErrors(Some(SignInMessage), None) && r.sent.None?
    ensures ValidateForm(form).0 && isAuthenticated && claimedWallet.None? && walletInUse ==>
      r == SubmitOutcome(FormErrors(None, Some(WalletUsedMessage)), None, false)
    ensures ValidateForm(form).0 && isAuthenticated && claimedWallet.None? && !walletInUse ==>
      r.sent == Some(BuildEntry(form))
    ensures ValidateForm(form).0 && isAuthenticated && claimedWallet.Some? ==>
      && r.sent.None?
      && (claimedWallet.value != Trim(form.walletAddress) ==> r.errors == FormErrors(None, Some(OtherWalletMessage)))
      && (claimedWallet.value == Trim(form.walletAddress) ==> r.errors == FormErrors(Some(AlreadyJoinedMessage), None))
    ensures r.reset <==> r.sent.Some? && submitError.None?
    ensures r.reset ==> r.errors == NoErrors
    ensures r.sent.Some? && submitError.Some? ==> r.errors == RouteError(submitError.value)
  {
    var (valid, errors) := ValidateForm(form);
    if !valid then
      SubmitOutcome(errors, None, false)
    else if !isAuthenticated then
      SubmitOutcome(FormErrors(Some(SignInMessage), None), None, false)
    else if claimedWallet.Some? then
      if claimedWallet.value != ValidateWalletAddress(form.walletAddress).normalizedAddress then
        SubmitOutcome(FormErrors(None, Some(OtherWalletMessage)), None, false)
      else
        SubmitOutcome(FormErrors(Some(AlreadyJoinedMessage), None), None, false)
    else if walletInUse then
      SubmitOutcome(FormErrors(None, Some(WalletUsedMessage)), None, false)
    else
      var entry := BuildEntry(form);
      match submitError
      case None => SubmitOutcome(NoErrors, Some(entry), true)
      case Some(m) => SubmitOutcome(RouteError(m), Some(entry), false)
  }

  /** Only forms whose button is enabled ever reach the submit callback. */
  lemma SentOnlyWhenSubmittable(form: Form, isAuthenticated: bool, claimedWallet: Option<string>,
                                walletInUse: bool, submitError: Option<string>)
    ensures HandleSubmit(form, isAuthenticated, claimedWallet, walletInUse, submitError).sent.Some? ==>
      CanSubmit(form, isAuthenticated)
  {
    CanSubmitIffValid(form, isAuthenticated);
  }
}

=== FILE: waitlist_service.dfy ===
/** The client-side spot registry: a remote `waitlist_entries` table with a
    tab-local fallback store keyed by wallet address. Every failure of the
    remote path, including its own "position taken" rejection, is masked by
    running the local fallback instead. */
module WaitlistService {
  import opened Wrappers
  import opened Table
  import opened Keyed

  const PositionTakenMessage := "This position is already taken"

  /** The fields a caller submits to `addEntry`. */
  datatype NewEntry = NewEntry(
    name: string,
    walletAddress: string,
    avatar: string,
    avatarType: AvatarType,
    avatarSeed: Option<string>,
    avatarStyle: Option<string>,
    profileId: int)

  /** The application's view of one claim (`WaitlistEntry`). */
  datatype AppEntry = AppEntry(
    id: string,
    name: string,
    walletAddress: string,
    avatar: string,
    avatarType: AvatarType,
    avatarSeed: Option<string>,
    avatarStyle: Option<string>,
    profileId: int,
    timestamp: int)

  /** The columns the client writes (`appToDb`'s result). */
  datatype DbWrite = DbWrite(
    name: string,
    wallet_address: string,
    avatar: string,
    avatar_type: AvatarType,
    avatar_seed: Option<string>,
    avatar_style: Option<string>,
    profile_id: int)

  /** Identifiers and clocks the environment supplies: `generateId()` and
      `Date.now()` for the local store, the id and `created_at` the remote
      store assigns to an inserted row. */
  datatype Fresh = Fresh(localId: string, now: int, rowId: string, createdAt: int)

  /** `{ ...entry, id, timestamp }`. */
  function Stamp(e: NewEntry, id: string, timestamp: int): AppEntry {
    AppEntry(id, e.name, e.walletAddress, e.avatar, e.avatarType, e.avatarSeed,
             e.avatarStyle, e.profileId, timestamp)
  }

  function AppToDb(e: NewEntry): DbWrite {
    DbWrite(e.name, e.walletAddress, e.avatar, e.avatarType, e.avatarSeed, e.avatarStyle, e.profileId)
  }

  function DbToApp(row: Row): AppEntry {
    AppEntry(row.id, row.name, row.walletAddress, row.avatar, row.avatarType,
             row.avatarSeed, row.avatarStyle, row.profileId, row.createdAt)
  }

  /** The row an `insert(dbEntry)` creates: the store assigns `id` and
      `created_at`; the client never sets `user_id`. */
  function InsertedRow(w: DbWrite, id: string, createdAt: int): Row {
    Row(id, w.name, w.wallet_address, w.avatar, w.avatar_type, w.avatar_seed,
        w.avatar_style, w.profile_id, None, createdAt)
  }

  /** Writing an entry and reading the stored row back preserves every field
      the caller supplied, and yields exactly what the local store would hold
      for the same id and time. */
  lemma AppDbRoundTrip(e: NewEntry, id: string, createdAt: int)
    ensures var app := DbToApp(InsertedRow(AppToDb(e), id, createdAt));
      && app == Stamp(e, id, createdAt)
      && app.name == e.name && app.walletAddress == e.walletAddress
      && app.avatar == e.avatar && app.avatarType == e.avatarType
      && app.avatarSeed == e.avatarSeed && app.avatarStyle == e.avatarStyle
      && app.profileId == e.profileId
  {
  }

  // ---------------------------------------------------------------------
  // The local fallback store

  type Store = map<string, AppEntry>

  function WalletOf(e: AppEntry): string {
    e.walletAddress
  }

  /** Each entry is filed under its own wallet address. */
  ghost predicate WalletKeyed(m: Store) {
    forall w :: w in m ==> m[w].walletAddress == w
  }

  /** No two wallets hold the same slot. */
  ghost predicate DistinctSlots(m: Store) {
    forall w1, w2 :: w1 in m && w2 in m && w1 != w2 ==> m[w1].profileId != m[w2].profileId
  }

  /** Some wallet other than `w` holds slot `profileId`. */
  predicate SlotHeldByOther(m: Store, w: string, profileId: int) {
    exists k :: k in m && k != w && m[k].profileId == profileId
  }

  /** The wallets named in a stored array. */
  ghost function WalletsOf(s: seq<AppEntry>): set<string> {
    set i | 0 <= i < |s| :: s[i].walletAddress
  }

  /** `getLocalStorageEntries`: the persisted array (absent or unreadable:
      `None`) becomes a map keyed by wallet, later duplicates winning. */
  function LoadStore(stored: Option<seq<AppEntry>>): Store {
    match stored
    case None => map[]
    case Some(s) => KeyBy(s, WalletOf)
  }

  /** At most one entry per wallet: the loaded map holds exactly the wallets
      of the array, each under its own address, and a wallet listed several
      times keeps its last entry. */
  lemma LoadStoreContents(s: seq<AppEntry>)
    ensures var m := LoadStore(Some(s));
      && m.Keys == WalletsOf(s)
      && WalletKeyed(m)
      && (forall i :: IsLastWithKey(s, WalletOf, i) ==> m[s[i].walletAddress] == s[i])
  {
    KeyByContents(s, WalletOf);
    var m := LoadStore(Some(s));
    forall w | w in m ensures w in WalletsOf(s) {
      var i :| 0 <= i < |s| && s[i] == m[w];
    }
  }

  /** `saveToLocalStorage`: the map's values as an array; loading that array
      gives the map back. */
  method SaveToLocalStorage(m: Store) returns (s: seq<AppEntry>)
    requires WalletKeyed(m)
    ensures LoadStore(Some(s)) == m
  {
    s := [];
    var rest := m.Keys;
    while rest != {}
      invariant rest <= m.Keys
      invariant KeyBy(s, WalletOf) == map k | k in m.Keys - rest :: m[k]
      decreases rest
    {
      var k :| k in rest;
      assert (s + [m[k]])[..|s|] == s;
      s := s + [m[k]];
      rest := rest - {k};
    }
    assert m.Keys - rest == m.Keys;
  }

  datatype LocalOutcome = LocalOutcome(result: Result<AppEntry, string>, store: Store)

  /** `fallbackToLocalStorage`: an idempotent resubmission returns the stored
      entry; a wallet asking for another free slot moves there with a fresh
      id and time; a slot held by another wallet is refused and nothing is
      saved. */
  function FallbackToLocalStorage(store: Store, entry: NewEntry, ids: Fresh): (r: LocalOutcome)
    ensures var w := entry.walletAddress;
      w in store && store[w].profileId == entry.profileId ==> r == LocalOutcome(Success(store[w]), store)
    ensures var w := entry.walletAddress;
      r.result.Failure? <==>
        !(w in store && store[w].profileId == entry.profileId) && SlotHeldByOther(store, w, entry.profileId)
    ensures r.result.Failure? ==> r.result.error == PositionTakenMessage && r.store == store
    ensures r.result.Success? ==>
      && entry.walletAddress in r.store
      && r.store[entry.walletAddress] == r.result.value
      && r.result.value.profileId == entry.profileId
    ensures r.result.Success? && r.store != store ==> r.result.value == Stamp(entry, ids.localId, ids.now)
    ensures forall k :: k != entry.walletAddress ==>
      (k in r.store <==> k in store) && (k in store ==> r.store[k] == store[k])
  {
    var w := entry.walletAddress;
    if w in store && store[w].profileId == entry.profileId then
      LocalOutcome(Success(store[w]), store)
    else
      var entries := store - {w};
      if exists k :: k in entries && entries[k].profileId == entry.profileId then
        LocalOutcome(Failure(PositionTakenMessage), store)
      else
        assert !SlotHeldByOther(store, w, entry.profileId) by {
          forall k | k in store && k != w ensures store[k].profileId != entry.profileId {
            assert k in entries;
          }
        }
        var newEntry := Stamp(entry, ids.localId, ids.now);
        LocalOutcome(Success(newEntry), entries[w := newEntry])
  }

  /** A successful fallback keeps the store keyed by wallet and keeps slots
      pairwise distinct. */
  lemma FallbackPreservesInvariants(store: Store, entry: NewEntry, ids: Fresh)
    requires WalletKeyed(store) && DistinctSlots(store)
    ensures var r := FallbackToLocalStorage(store, entry, ids);
      WalletKeyed(r.store) && DistinctSlots(r.store)
  {
    var r := FallbackToLocalStorage(store, entry, ids);
    var w := entry.walletAddress;
    if r.store != store {
      assert !SlotHeldByOther(store, w, entry.profileId);
      forall w1, w2 | w1 in r.store && w2 in r.store && w1 != w2
        ensures r.store[w1].profileId != r.store[w2].profileId
      {
        if w1 != w && w2 != w {
          assert r.store[w1] == store[w1] && r.store[w2] == store[w2];
        }
      }
    }
  }

  /** Resubmitting an entry that was just accepted returns the same stored
      entry and changes nothing. */
  lemma FallbackResubmitIsIdempotent(store: Store, entry: NewEntry, ids1: Fresh, ids2: Fresh)
    requires FallbackToLocalStorage(store, entry, ids1).result.Success?
    ensures var first := FallbackToLocalStorage(store, entry, ids1);
      FallbackToLocalStorage(first.store, entry, ids2) == first
  {
  }

  function GetFromLocalStorage(store: Store, w: string): (r: Option<AppEntry>)
    ensures r.Some? <==> w in store
    ensures r.Some? ==> r.value == store[w]
  {
    if w in store then Some(store[w]) else None
  }

  datatype RemoveOutcome = RemoveOutcome(removed: bool, store: Store)

  /** `removeFromLocalStorage`: reports whether the wallet was present; it is
      absent afterwards and every other entry is untouched. */
  function RemoveFromLocalStorage(store: Store, w: string): (r: RemoveOutcome)
    ensures r.removed <==> w in store
    ensures w !in r.store
    ensures forall k :: k != w ==> (k in r.store <==> k in store) && (k in store ==> r.store[k] == store[k])
    ensures !r.removed ==> r.store == store
  {
    if w in store then RemoveOutcome(true, store - {w}) else RemoveOutcome(false, store)
  }

  /** `getByProfileIdFromLocalStorage`: an entry holding the slot, if any;
      with distinct slots it is the one holder. */
  method GetByProfileIdFromLocalStorage(store: Store, profileId: int) returns (r: Option<AppEntry>)
    ensures r.Some? ==> r.value in store.Values && r.value.profileId == profileId
    ensures r.None? <==> forall k :: k in store ==> store[k].profileId != profileId
    ensures DistinctSlots(store) && r.Some? ==>
      forall k :: k in store && store[k].profileId == profileId ==> store[k] == r.value
  {
    var rest := store.Keys;
    while rest != {}
      invariant rest <= store.Keys
      invariant forall k :: k in store.Keys - rest ==> store[k].profileId != profileId
      decreases rest
    {
      var k :| k in rest;
      if store[k].profileId == profileId {
        return Some(store[k]);
      }
      rest := rest - {k};
    }
    return None;
  }

  /** `getSizeFromLocalStorage`: the number of distinct wallets stored. */
  function GetSizeFromLocalStorage(stored: Option<seq<AppEntry>>): (n: nat)
    ensures stored.None? ==> n == 0
    ensures stored.Some? ==> n == |WalletsOf(stored.value)|
  {
    if stored.Some? then LoadStoreContents(stored.value); |LoadStore(stored)|
    else |LoadStore(stored)|
  }

  // ---------------------------------------------------------------------
  // The remote path of `addEntry`

  /** The remote store as the client sees it: unconfigured (no client), or a
      table together with the failures the next calls will meet.
      `Unconfigured` is the service's own `!supabase` branch; the exported
      client (lib/supabase.ts) is a proxy object and so always truthy, and a
      missing configuration shows up instead as every query throwing, which
      is `Remote` with `unreachable` set. */
  datatype Backend = Unconfigured | Remote(rows: seq<Row>, faults: Faults)

  /** `unreachable`: a query throws. `walletLookupFails`/`slotLookupFails`:
      the lookup returns an error, which `addEntry` never reads, so the
      wallet or slot reads as free. `updateFails`/`insertFails`: the write
      returns an error, which is thrown. */
  datatype Faults = Faults(unreachable: bool, walletLookupFails: bool, slotLookupFails: bool,
                           updateFails: bool, insertFails: bool)

  const NoRemoteFaults := Faults(false, false, false, false, false)

  /** A `.single()` lookup whose error is not read: a failed query has no
      data and reads as no row. */
  function LookupUnlessFails(fails: bool, rows: seq<Row>, p: Row -> bool): (r: Option<Row>)
    ensures fails ==> r.None?
    ensures !fails ==> r == Lookup(rows, p)
  {
    if fails then None else Lookup(rows, p)
  }

  /** The columns `update(...)` writes when a wallet moves; an absent seed or
      style is left out of the request and keeps the stored value. */
  function MovedRow(row: Row, e: NewEntry): Row {
    row.(profileId := e.profileId, name := e.name, avatar := e.avatar, avatarType := e.avatarType,
         avatarSeed := if e.avatarSeed.Some? then e.avatarSeed else row.avatarSeed,
         avatarStyle := if e.avatarStyle.Some? then e.avatarStyle else row.avatarStyle)
  }

  function UpdateWallet(rows: seq<Row>, w: string, e: NewEntry): (r: seq<Row>)
    ensures |r| == |rows|
    ensures forall i :: 0 <= i < |rows| ==>
      r[i] == if rows[i].walletAddress == w then MovedRow(rows[i], e) else rows[i]
  {
    seq(|rows|, i requires 0 <= i < |rows| =>
      if rows[i].walletAddress == w then MovedRow(rows[i], e) else rows[i])
  }

  /** The `try` block of `addEntry` (lines 93-146): a result and the new
      table, or `Failure` for anything thrown. */
  function PrimaryAdd(rows: seq<Row>, faults: Faults, entry: NewEntry, ids: Fresh): (r: Result<(AppEntry, seq<Row>), string>)
    ensures r.Success? && r.value.1 == rows ==> exists row :: row in rows && r.value.0 == DbToApp(row)
    ensures faults.unreachable ==> r.Failure?
    ensures r.Success? ==>
      r.value.0.walletAddress == entry.walletAddress && r.value.0.profileId == entry.profileId
    ensures !faults.unreachable
            && LookupUnlessFails(faults.walletLookupFails, rows, ByWallet(entry.walletAddress)).None?
            && LookupUnlessFails(faults.slotLookupFails, rows, BySlot(entry.profileId)).Some? ==>
      r == Failure(PositionTakenMessage)
    ensures !faults.unreachable && !faults.insertFails
            && LookupUnlessFails(faults.walletLookupFails, rows, ByWallet(entry.walletAddress)).None?
            && LookupUnlessFails(faults.slotLookupFails, rows, BySlot(entry.profileId)).None? ==>
      var row := InsertedRow(AppToDb(entry), ids.rowId, ids.createdAt);
      r == Success((DbToApp(row), rows + [row]))
    ensures !faults.unreachable
            && LookupUnlessFails(faults.walletLookupFails, rows, ByWallet(entry.walletAddress)).Some?
            && Lookup(rows, ByWallet(entry.walletAddress)).value.profileId == entry.profileId ==>
      r == Success((DbToApp(Lookup(rows, ByWallet(entry.walletAddress)).value), rows))
    ensures !faults.unreachable && !faults.updateFails
            && LookupUnlessFails(faults.walletLookupFails, rows, ByWallet(entry.walletAddress)).Some? ==>
      var existing := Lookup(rows, ByWallet(entry.walletAddress)).value;
      && r.Success? && r.value.0.profileId == entry.profileId
      && (existing.profileId != entry.profileId ==>
            r.value == (DbToApp(MovedRow(existing, entry)), UpdateWallet(rows, entry.walletAddress, entry)))
    ensures !faults.unreachable && faults.updateFails
            && LookupUnlessFails(faults.walletLookupFails, rows, ByWallet(entry.walletAddress)).Some?
            && Lookup(rows, ByWallet(entry.walletAddress)).value.profileId != entry.profileId ==>
      r.Failure?
    ensures !faults.unreachable && faults.insertFails
            && LookupUnlessFails(faults.walletLookupFails, rows, ByWallet(entry.walletAddress)).None? ==>
      r.Failure?
  {
    if faults.unreachable then
      Failure("remote store unreachable")
    else
      match LookupUnlessFails(faults.walletLookupFails, rows, ByWallet(entry.walletAddress))
      case Some(existing) =>
        if existing.profileId == entry.profileId then
          Success((DbToApp(existing), rows))
        else if faults.updateFails then
          Failure("update failed")
        else
          Success((DbToApp(MovedRow(existing, entry)), UpdateWallet(rows, entry.walletAddress, entry)))
      case None =>
        if LookupUnlessFails(faults.slotLookupFails, rows, BySlot(entry.profileId)).Some? then
          Failure(PositionTakenMessage)
        else if faults.insertFails then
          Failure("insert failed")
        else
          var row := InsertedRow(AppToDb(entry), ids.rowId, ids.createdAt);
          Success((DbToApp(row), rows + [row]))
  }

  datatype AddOutcome = AddOutcome(result: Result<AppEntry, string>, backend: Backend, store: Store)

  /** `addEntry`. Without a remote client the local fallback runs directly;
      otherwise anything the remote path throws is replaced by the local
      fallback's outcome, so the only error a caller can ever see is the
      local store's "position taken". */
  function AddEntry(backend: Backend, store: Store, entry: NewEntry, ids: Fresh): (r: AddOutcome)
    ensures r.result.Failure? ==>
      && r.result.error == PositionTakenMessage
      && r.backend == backend && r.store == store
      && FallbackToLocalStorage(store, entry, ids).result.Failure?
    ensures r.store != store ==> r.backend == backend
    ensures backend.Unconfigured? ==> r.backend == backend
    ensures backend.Remote? && PrimaryAdd(backend.rows, backend.faults, entry, ids).Failure? ==>
      && r.result == FallbackToLocalStorage(store, entry, ids).result
      && r.backend == backend
    ensures backend.Unconfigured? || (backend.Remote? && PrimaryAdd(backend.rows, backend.faults, entry, ids).Failure?) ==>
      && r.result == FallbackToLocalStorage(store, entry, ids).result
      && r.store == FallbackToLocalStorage(store, entry, ids).store
    ensures backend.Remote? && PrimaryAdd(backend.rows, backend.faults, entry, ids).Success? ==>
      var added := PrimaryAdd(backend.rows, backend.faults, entry, ids).value;
      && r.result == Success(added.0)
      && r.store == store
      && r.backend == Remote(added.1, backend.faults)
  {
    match backend
    case Unconfigured =>
      var local := FallbackToLocalStorage(store, entry, ids);
      AddOutcome(local.result, backend, local.store)
    case Remote(rows, faults) =>
      match PrimaryAdd(rows, faults, entry, ids)
      case Success((e, rows')) => AddOutcome(Success(e), Remote(rows', faults), store)
      case Failure(_) =>
        var local := FallbackToLocalStorage(store, entry, ids);
        AddOutcome(local.result, backend, local.store)
  }

  // ---------------------------------------------------------------------
  // Reads and removals: the remote table when a client is configured and
  // the query does not throw, the local store otherwise

  /** The remote table is used: a client exists and queries do not throw. */
  predicate UsesRemote(backend: Backend) {
    backend.Remote? && !backend.faults.unreachable
  }

  /** `getEntry`: the single row holding the wallet (no row, or several,
      read as none), or the local store's entry. */
  function GetEntry(backend: Backend, store: Store, w: string): (r: Option<AppEntry>)
    ensures !UsesRemote(backend) ==> r == GetFromLocalStorage(store, w)
    ensures UsesRemote(backend) && r.Some? ==>
      exists row :: row in backend.rows && row.walletAddress == w && r.value == DbToApp(row)
    ensures UsesRemote(backend) && |Filter(backend.rows, ByWallet(w))| != 1 ==> r.None?
  {
    if !UsesRemote(backend) then GetFromLocalStorage(store, w)
    else match Lookup(backend.rows, ByWallet(w))
      case Some(row) => Some(DbToApp(row))
      case None => None
  }

  /** On a table that keeps wallets unique, `getEntry` finds a claim exactly
      when some row holds the wallet. */
  lemma GetEntryOnUniqueTable(rows: seq<Row>, faults: Faults, store: Store, w: string)
    requires UniqueKeys(rows) && !faults.unreachable
    ensures GetEntry(Remote(rows, faults), store, w).Some? <==> exists row :: row in rows && row.walletAddress == w
  {
    UniqueKeysLookups(rows, w, 0, "");
    LookupUnique(rows, ByWallet(w));
  }

  /** `getEntryByProfileId`: the single row holding the slot, or an entry of
      the local store holding it. On a table that keeps slots unique, a row
      is found exactly when one holds the slot. */
  method GetEntryByProfileId(backend: Backend, store: Store, profileId: int) returns (r: Option<AppEntry>)
    ensures r.Some? ==> r.value.profileId == profileId
    ensures !UsesRemote(backend) ==>
      && (r.Some? ==> r.value in store.Values)
      && (r.None? <==> forall k :: k in store ==> store[k].profileId != profileId)
    ensures UsesRemote(backend) && r.Some? ==> exists row :: row in backend.rows && r.value == DbToApp(row)
    ensures UsesRemote(backend) && UniqueKeys(backend.rows) ==>
      (r.Some? <==> exists row :: row in backend.rows && row.profileId == profileId)
  {
    if !UsesRemote(backend) {
      r := GetByProfileIdFromLocalStorage(store, profileId);
      return;
    }
    var rows := backend.rows;
    if UniqueKeys(rows) {
      UniqueKeysLookups(rows, "", profileId, "");
      LookupUnique(rows, BySlot(profileId));
    }
    match Lookup(rows, BySlot(profileId)) {
      case Some(row) => r := Some(DbToApp(row));
      case None => r := None;
    }
  }

  /** `getAllEntries`: every row of the table converted, or every entry of
      the local store once. */
  method GetAllEntries(backend: Backend, store: Store) returns (r: seq<AppEntry>)
    ensures UsesRemote(backend) ==>
      |r| == |backend.rows| && forall i :: 0 <= i < |r| ==> r[i] == DbToApp(backend.rows[i])
    ensures !UsesRemote(backend) ==>
      && |r| == |store|
      && forall e :: e in r <==> e in store.Values
  {
    if UsesRemote(backend) {
      return seq(|backend.rows|, i requires 0 <= i < |backend.rows| => DbToApp(backend.rows[i]));
    }
    r := StoreValues(store);
  }

  /** Every value of the local store once, in some order of its keys. */
  method StoreValues(store: Store) returns (r: seq<AppEntry>)
    ensures |r| == |store|
    ensures forall e :: e in r <==> e in store.Values
  {
    r := [];
    var rest := store.Keys;
    ghost var done: set<string> := {};
    while rest != {}
      invariant done + rest == store.Keys && done !! rest
      invariant |r| == |done|
      invariant forall e :: e in r <==> exists k :: k in done && store[k] == e
      decreases rest
    {
      var k :| k in rest;
      r := r + [store[k]];
      done := done + {k};
      rest := rest - {k};
    }
  }

  datatype RemoteRemoval = RemoteRemoval(removed: bool, backend: Backend, store: Store)

  /** `removeEntry`: the remote delete reports success whenever it returns
      no error, whether or not a row held the wallet; `deleteFails` is the
      delete returning an error. */
  function RemoveEntry(backend: Backend, store: Store, w: string, deleteFails: bool): (r: RemoteRemoval)
    ensures !UsesRemote(backend) ==>
      var local := RemoveFromLocalStorage(store, w);
      r == RemoteRemoval(local.removed, backend, local.store)
    ensures UsesRemote(backend) ==> r.store == store && (r.removed <==> !deleteFails)
    ensures UsesRemote(backend) && r.removed ==>
      && r.backend.Remote?
      && r.backend.rows == Filter(backend.rows, (row: Row) => row.walletAddress != w)
      && forall row :: row in r.backend.rows ==> row.walletAddress != w
    ensures UsesRemote(backend) && !r.removed ==> r.backend == backend
  {
    if !UsesRemote(backend) then
      var local := RemoveFromLocalStorage(store, w);
      RemoteRemoval(local.removed, backend, local.store)
    else if deleteFails then
      RemoteRemoval(false, backend, store)
    else
      RemoteRemoval(true, Remote(Filter(backend.rows, (row: Row) => row.walletAddress != w), backend.faults), store)
  }

  /** `getWaitlistSize`: the exact row count, or the number of wallets in
      the local store. */
  function GetWaitlistSize(backend: Backend, store: Store): (n: nat)
    ensures UsesRemote(backend) ==> n == |backend.rows|
    ensures !UsesRemote(backend) ==> n == |store.Keys|
  {
    if UsesRemote(backend) then |backend.rows| else |store|
  }

  /** The id the delete-all filter spares (`neq("id", ...)`). */
  const NilId := "00000000-0000-0000-0000-000000000000"

  /** `clearAllEntries`: the remote delete removes every row but one whose
      id is the nil id; when it fails, or without a remote table, the local
      store is emptied instead. */
  function ClearAllEntries(backend: Backend, store: Store, deleteFails: bool): (r: (Backend, Store))
    ensures UsesRemote(backend) && !deleteFails ==>
      && r.1 == store && r.0.Remote?
      && forall row :: row in r.0.rows <==> row in backend.rows && row.id == NilId
    ensures !(UsesRemote(backend) && !deleteFails) ==> r == (backend, map[])
  {
    if UsesRemote(backend) && !deleteFails then
      (Remote(Filter(backend.rows, (row: Row) => row.id == NilId), backend.faults), store)
    else (backend, map[])
  }

  /** The remote path's own "position taken" is never seen: with the slot
      held remotely by another wallet and an empty local store, the claim is
      accepted locally. */
  lemma RemoteConflictIsMasked()
    ensures var taken := Row("r1", "Ada", "walletA", "a.png", Upload, None, None, 5, None, 0);
      var entry := NewEntry("Bob", "walletB", "b.png", Upload, None, None, 5);
      var ids := Fresh("local1", 1000, "r2", 1000);
      var r := AddEntry(Remote([taken], NoRemoteFaults), map[], entry, ids);
      && PrimaryAdd([taken], NoRemoteFaults, entry, ids) == Failure(PositionTakenMessage)
      && r.result == Success(Stamp(entry, "local1", 1000))
      && r.backend == Remote([taken], NoRemoteFaults)
  {
    var taken := Row("r1", "Ada", "walletA", "a.png", Upload, None, None, 5, None, 0);
    assert Filter([taken], ByWallet("walletB")) == [];
    assert Filter([taken], BySlot(5)) == [taken];
  }

  /** A new wallet is inserted only into a slot the lookup found free, so
      while that lookup does not fail an insert keeps the table's keys
      unique (see `SlotLookupFailureDuplicatesSlot` for a failing one). */
  lemma PrimaryInsertKeepsKeysUnique(rows: seq<Row>, faults: Faults, entry: NewEntry, ids: Fresh)
    requires UniqueKeys(rows) && !faults.slotLookupFails
    requires Lookup(rows, ByWallet(entry.walletAddress)).None?
    ensures var r := PrimaryAdd(rows, faults, entry, ids);
      r.Success? ==> UniqueKeys(r.value.1)
  {
    var r := PrimaryAdd(rows, faults, entry, ids);
    if r.Success? {
      UniqueKeysLookups(rows, entry.walletAddress, entry.profileId, "");
      LookupUnique(rows, ByWallet(entry.walletAddress));
      LookupUnique(rows, BySlot(entry.profileId));
      var rows' := r.value.1;
      var row := rows'[|rows|];
      forall i, j | 0 <= i < j < |rows'|
        ensures rows'[i].walletAddress != rows'[j].walletAddress
        ensures rows'[i].profileId != rows'[j].profileId
        ensures rows'[i].userId.Some? ==> rows'[i].userId != rows'[j].userId
      {
        if j == |rows| {
          assert rows'[i] == rows[i] && rows[i] in rows;
          assert !ByWallet(entry.walletAddress)(rows[i]);
          assert !BySlot(entry.profileId)(rows[i]);
        } else {
          assert rows'[i] == rows[i] && rows'[j] == rows[j];
        }
      }
    }
  }

  /** The slot lookup's error is never read: when it fails, a wallet new to
      the table is inserted on a slot another row holds, and the table ends
      up with two rows on that slot. */
  lemma SlotLookupFailureDuplicatesSlot(rows: seq<Row>, entry: NewEntry, ids: Fresh, held: Row)
    requires forall x :: x in rows ==> x.walletAddress != entry.walletAddress
    requires held in rows && held.profileId == entry.profileId
    ensures var r := PrimaryAdd(rows, NoRemoteFaults.(slotLookupFails := true), entry, ids);
      && r.Success? && r.value.1 == rows + [InsertedRow(AppToDb(entry), ids.rowId, ids.createdAt)]
      && !UniqueKeys(r.value.1)
  {
    FilterNone(rows, ByWallet(entry.walletAddress));
    var r := PrimaryAdd(rows, NoRemoteFaults.(slotLookupFails := true), entry, ids);
    var i :| 0 <= i < |rows| && rows[i] == held;
    assert r.value.1[i] == held && r.value.1[|rows|].profileId == held.profileId;
  }

  /** Likewise for the wallet lookup: when it fails, a wallet that already
      has a row is inserted a second time (on a free slot). */
  lemma WalletLookupFailureDuplicatesWallet(rows: seq<Row>, entry: NewEntry, ids: Fresh, held: Row)
    requires forall x :: x in rows ==> x.profileId != entry.profileId
    requires held in rows && held.walletAddress == entry.walletAddress
    ensures var r := PrimaryAdd(rows, NoRemoteFaults.(walletLookupFails := true), entry, ids);
      && r.Success? && r.value.1 == rows + [InsertedRow(AppToDb(entry), ids.rowId, ids.createdAt)]
      && !UniqueKeys(r.value.1)
  {
    FilterNone(rows, BySlot(entry.profileId));
    var r := PrimaryAdd(rows, NoRemoteFaults.(walletLookupFails := true), entry, ids);
    var i :| 0 <= i < |rows| && rows[i] == held;
    assert r.value.1[i] == held && r.value.1[|rows|].walletAddress == held.walletAddress;
  }

  /** The move branch updates the wallet's row without asking whether the
      target slot is free (unlike the local fallback): a wallet can move onto
      a slot another wallet holds, leaving two rows on one slot. */
  lemma RemoteMoveSkipsSlotCheck()
    ensures var a := Row("r1", "Ada", "walletA", "a.png", Upload, None, None, 1, None, 0);
      var b := Row("r2", "Bob", "walletB", "b.png", Upload, None, None, 2, None, 0);
      var entry := NewEntry("Ada", "walletA", "a.png", Upload, None, None, 2);
      var r := PrimaryAdd([a, b], NoRemoteFaults, entry, Fresh("l", 0, "r3", 0));
      && UniqueKeys([a, b])
      && r.Success? && !UniqueKeys(r.value.1)
      && FallbackToLocalStorage(LoadStore(Some([DbToApp(a), DbToApp(b)])), entry, Fresh("l", 0, "r3", 0)).result.Failure?
  {
    var a := Row("r1", "Ada", "walletA", "a.png", Upload, None, None, 1, None, 0);
    var b := Row("r2", "Bob", "walletB", "b.png", Upload, None, None, 2, None, 0);
    var entry := NewEntry("Ada", "walletA", "a.png", Upload, None, None, 2);
    RemoteMoveOntoTakenSlot(a, b, entry, Fresh("l", 0, "r3", 0));
    LocalMoveOntoTakenSlot(DbToApp(a), DbToApp(b), entry, Fresh("l", 0, "r3", 0));
  }

  /** On a table of two rows, moving the first row's wallet onto the slot
      of the second succeeds and leaves both rows on that slot. */
  lemma RemoteMoveOntoTakenSlot(a: Row, b: Row, entry: NewEntry, ids: Fresh)
    requires a.walletAddress == entry.walletAddress && b.walletAddress != entry.walletAddress
    requires a.profileId != entry.profileId && b.profileId == entry.profileId
    ensures var r := PrimaryAdd([a, b], NoRemoteFaults, entry, ids);
      r.Success? && !UniqueKeys(r.value.1)
  {
    assert Filter([a, b], ByWallet(entry.walletAddress)) == [a] by {
      assert [a, b][1..] == [b];
      assert [b][1..] == [];
    }
    var rows' := UpdateWallet([a, b], entry.walletAddress, entry);
    assert rows'[0].profileId == rows'[1].profileId;
  }

  /** The local store refuses the same move: the slot is held by the other
      wallet. */
  lemma LocalMoveOntoTakenSlot(a: AppEntry, b: AppEntry, entry: NewEntry, ids: Fresh)
    requires a.walletAddress == entry.walletAddress && b.walletAddress != entry.walletAddress
    requires a.profileId != entry.profileId && b.profileId == entry.profileId
    ensures FallbackToLocalStorage(LoadStore(Some([a, b])), entry, ids).result.Failure?
  {
    var store := LoadStore(Some([a, b]));
    LoadStoreContents([a, b]);
    assert IsLastWithKey([a, b], WalletOf, 1);
    assert store[b.walletAddress] == b;
    assert SlotHeldByOther(store, entry.walletAddress, entry.profileId);
  }
}

=== FILE: wrappers.dfy ===
/** Failure-compatible wrappers shared by every module of the model:
    `Option` stands for JavaScript's `undefined`/`null`, `Result` for a value
    or a thrown/rejected error. */
module Wrappers {

  datatype Option<+T> = None | Some(value: T) {

    /** The value, or `default` when absent (JavaScript's `x ?? default`). */
    function GetOr(default: T): T {
      match this
      case Some(v) => v
      case None => default
    }
  }

  datatype Result<+R, +E> = Success(value: R) | Failure(error: E) {

    predicate IsFailure() {
      Failure?
    }

    function PropagateFailure<U>(): Result<U, E>
      requires Failure?
    {
      Failure(error)
    }

    function Extract(): R
      requires Success?
    {
      value
    }
  }
}
